=== FILE: README.md ===
# Arabic RAG: a Dafny model of its sequential core

The application answers questions about an uploaded document. It OCRs or
decodes the file, indexes its chunks in a hosted vector database under the
session's namespace, retrieves chunks for each question (optionally
reranked), and asks a hosted LLM to answer from them. Almost everything
heavy is a remote service. This project models what is left once those
services are abstracted: the pure sequence, string and session-state logic
around them. It proves what that logic guarantees.

Every external call is a function-typed parameter:

- vector search (`Retriever.Search`);
- the hosted reranker (`Retriever.Rerank`);
- the cross-encoder (`predict`);
- image upload (`Document.Uploader`);
- OCR (`Document.Ocr`);
- MD5 (`md5`);
- UTF-8 decoding (`decode`);
- chunking plus embedding plus upsert (`ingest`);
- the LLM chain (`Chat.Llm`).

Clock readings and UUIDs are string parameters. Streamlit's
`st.session_state` is the record `Session.SessionState`. In that record,
`Slot` tells a missing key apart from a key that holds Python's `None`.

Modules, one per file:

- `Wrappers` (wrappers.dfy): `Option` and `Result`.
- `Text` (text.dfy): `sep.join(...)` and where each item lands in the joined string.
- `Session` (session.dfy): the session-state record, the store handle and chat turns.
- `Utils` (utils.dfy): `web_service/utils/utils.py`, i.e. `str.strip`, `split('\n')`, OCR line cleaning and the memoised session id.
- `RerankService` (rerank_service.dfy): `reranking_service/app.py`, i.e. score pairing, the stable descending sort and the top-k slice.
- `Retriever` (retriever.dfy): `core/retriever.py`.
- `Document` (document.dfy): `core/document.py`.
- `Chat` (chat.dfy): `web_service/core/chat.py`.
- `Ui` (ui.dfy): `web_service/utils/ui.py`, i.e. session-state init/reset and the sidebar.

Three facts about the code shape the model:

- The retriever reranks through the vector database's hosted reranker
  (`pc.inference.rerank`, core/retriever.py:52), not through the project's
  reranking service. `Retriever.RerankWithService` relates the two by
  plugging the service's response in as the reranker
  (`Retriever.ServiceReranker`).
- The retriever's output length equals `min(top_n, hits)` only when the
  hosted reranker returns at most `min(top_n, hits)` results, as its service
  documents, and every one of them matches a hit. The model leaves the
  reranker unconstrained, so in general the length is only at most the
  number of rerank results.
- The content-hash deduplication never reuses a store (see Findings).

## Model

| member | source | states |
|---|---|---|
| Utils.Strip | web_service/utils/utils.py:74 | `line.strip()` returns the line minus surrounding whitespace only. The result is a contiguous slice whose cut-off prefix and suffix are all whitespace (Python's `isspace` set). The result neither starts nor ends with whitespace. An all-whitespace line strips to "". |
| Utils.SplitLines | web_service/utils/utils.py:74 | `text.split('\n')` gives one more piece than there are newlines, and no piece contains a newline. |
| Utils.JoinSplitLines | web_service/utils/utils.py:74 | Joining the pieces of `split('\n')` with `'\n'` rebuilds the text exactly. |
| Utils.SplitJoinLines | web_service/utils/utils.py:74 | Splitting newline-free lines joined by `'\n'` gives back exactly those lines. |
| Utils.CleanLines | web_service/utils/utils.py:74 | The lines of the cleaned text are exactly the input's lines, each stripped, so the newline count is unchanged. |
| Utils.CleanLinesLines | web_service/utils/utils.py:74 | Cleaning keeps the newline count. Output line i is input line i stripped, so no output line starts or ends with whitespace. |
| Utils.CleanLinesIdempotent | web_service/utils/utils.py:74 | Cleaning an already cleaned text changes nothing. |
| Utils.ExtractTextFromImageUrl | web_service/utils/utils.py:52-80 | An OCR failure yields "". Otherwise the result has the OCR text's lines, each stripped, with the same newline count. |
| Utils.GenerateSessionId | web_service/utils/utils.py:82-88 | A stored id is returned and the state is left unchanged. Otherwise `time + "_" + uuid` is stored and returned. No other key changes. |
| Utils.SessionIdStable | web_service/utils/utils.py:84-88 | After one call, every later call returns the same id and leaves the state unchanged, whatever clock reading and UUID it receives. |
| Text.JoinPiece | core/retriever.py:73 | In `sep.join(xs)`, item i occurs at offset (lengths of earlier items plus i separators). Every item except the last is followed by the separator. |
| RerankService.ScoreAll | reranking_service/app.py:34-40 | Entry i pairs document i with the score the model gives (query, document i). There is one entry per document. |
| RerankService.SortDesc | reranking_service/app.py:43 | The sorted list is a permutation of the scored documents, with non-increasing scores. |
| RerankService.SortDescStable | reranking_service/app.py:43 | For every score, the entries with that score keep their input order (the sort is stable under `reverse=True`). |
| RerankService.StableDescendingUnique | reranking_service/app.py:43 | Two lists that are descending and that agree on every tie group are equal. So the modelled sort is exactly Python's stable reverse sort. |
| RerankService.SliceTo | reranking_service/app.py:43 | `xs[:k]` is a prefix of length `min(k, len)` for k >= 0. For negative k its length is `max(0, len + k)`. |
| RerankService.TopKOfSorted | reranking_service/app.py:43 | Sort-then-slice yields a descending sub-multiset of the scored documents. Every cut entry scores at most every kept one. Each tie group kept is a prefix of that group in input order. |
| RerankService.Rerank | reranking_service/app.py:31-45 | Output length is `min(top_k, len(documents))` for top_k >= 0, or Python's slice length for negative top_k. Every entry is an input document with its own score. Entries form a sub-multiset of the scored inputs (nothing invented or duplicated) with non-increasing scores. Nothing cut scores above anything kept. Ties keep input order. |
| Retriever.NewRetriever | core/retriever.py:13-24 | The namespace equals the session id. An explicit non-empty id is used as given and the session is untouched. Otherwise the id is `generate_session_id()`'s: an existing one is reused, a missing one becomes `now + "_" + uuid`, and only the `session_id` key changes. No store is attached. |
| Retriever.InitVectorstore | core/retriever.py:26-31 | Attaching a store re-points it at the retriever's namespace and changes nothing else. A scoped retriever stays scoped. |
| Retriever.Contents | core/retriever.py:51 | The texts sent to the reranker are exactly the hits' contents, in hit order. |
| Retriever.FirstMatch | core/retriever.py:62-65 | Returns the index of the first hit whose content equals the text. Returns none exactly when no hit has that content. |
| Retriever.JoinReranked | core/retriever.py:60-66 | The nested loop with `break` computes the reference join `MatchAll`: for each result in order, the first hit with equal text, or nothing. |
| Retriever.MatchAllProperties | core/retriever.py:60-66 | The join returns at most one document per result, and each is a hit. Each is the first hit carrying its text, so duplicate contents collapse onto the first hit. The output texts are the result texts that match some hit, in result order; unmatched results are dropped. |
| Retriever.GetRelevantDocuments | core/retriever.py:33-66 | No store gives []. Without reranking the result is exactly the search result for this namespace and `vector_top_k`. With reranking the result is the join `MatchAll`: for each rerank result in order, the first hit with that text. So every output is a hit, there are at most as many outputs as rerank results, and the output texts are the matched result texts in result order. |
| Retriever.SearchUsesSessionNamespace | core/retriever.py:21-45 | A retriever built by the constructor and given a store searches the namespace equal to its session id, with reranking on or off: the result is those hits, or their join with the reranked texts, and the store carries that namespace. |
| Retriever.RerankOfKnownTexts | core/retriever.py:50-66 | If every text the reranker returns is the content of some hit, the join drops nothing. The output then has one document per result, and its texts are the results in the reranker's order. |
| Retriever.RerankWithService | core/retriever.py:50-66 | With the reranking service's response as the reranker, nothing is dropped. The output has `min(top_n, hits)` documents whose texts are the service's results in score order. |
| Retriever.ContextLayout | core/retriever.py:68-73 | The context is "" for no documents. Otherwise it is the contents in retrieval order with exactly one blank line between neighbours, and its length is the contents' total plus 2 per gap. |
| Retriever.Invoke | core/retriever.py:68-73 | The returned string is "" when no document is retrieved. Otherwise each retrieved content sits at its offset, in retrieval order, with exactly one blank line between neighbours, and the length is the contents' total plus 2 per gap. |
| Document.NewProcessor | core/document.py:19-30 | Construction fails (the text splitter's `ValueError`) exactly when the overlap exceeds the chunk size, before any id is generated. Otherwise the new processor has no store and no remembered hash, and keeps the chunk settings. Its namespace equals its session id. An explicit non-empty id is used as given and the session is untouched. Otherwise the id is `generate_session_id()`'s: an existing one is reused, a missing one becomes `now + "_" + uuid`, and only the `session_id` key changes. |
| Document.PdfRouteAnyCase | core/document.py:70-73 | The PDF route is taken exactly when the path ends in ".pdf" in any mix of letter cases. |
| Document.PagePathInjective | core/document.py:51-55 | Different page numbers give different page-image paths. |
| Document.ConvertPdfToImages | core/document.py:32-63 | Returns one `compressed_page_{i+1}.png` path per page, in page order, all distinct. On an exception it returns the paths produced before the failing page. |
| Document.ExtractTextFromPdfOrImage | core/document.py:65-87 | A PDF is OCR'd page by page; any other file as the single image `[file_path]`. The text is the in-order fold of each successful upload's OCR text plus "\n\n". |
| Document.FoldPages | core/document.py:75-82 | The loop over the image paths computes the reference fold `CombinedText`: each successful upload adds its cleaned OCR text and a blank line, in path order. |
| Document.CombinedTextShape | core/document.py:75-80 | The combined text is the successful pages' texts joined by a blank line, plus a trailing blank line. It is "" when no upload succeeded. |
| Document.AllUploadsFailed | core/document.py:75-87 | With zero images, or every upload failing, the text is "". |
| Document.FailedUploadSkipped | core/document.py:77-82 | An image whose upload fails contributes nothing, wherever it occurs. |
| Document.UploadText | core/document.py:116-119 | A `text/plain` upload is decoded from its bytes; any other upload uses its OCR text. |
| Document.ProcessAndStore | core/document.py:103-149 | Rebuilds exactly when the `vectorstore` key is missing or the remembered hash differs from the current one. Rebuilding changes only the processor's store and hash, and only the session's `vectorstore`. The new store is the handle `ingest` returns for this namespace and the upload's text. Reusing changes only the processor's store, taken from the session, and leaves the session unchanged. A decoding failure on the rebuild path is the only failure, and it changes nothing. |
| Document.FreshProcessorAlwaysReprocesses | core/document.py:109 | A processor straight from its constructor always takes the rebuild branch. |
| Document.SameUploadRebuiltNextRun | web_service/app.py:29-37 | The same bytes uploaded on two consecutive runs, each with a newly built processor, are ingested twice. |
| Document.ProcessAndStorePersisted | core/document.py:103-149 | Corrected deduplication: rebuild exactly when the key is missing or the session's stored hash differs. Rebuilding changes only the processor's store and hash and the session's `vectorstore` and `file_hash`, so the chat history and session id survive. The new store is the handle `ingest` returns for this namespace and text. Reusing leaves the session unchanged. A decoding failure on the rebuild path is the only failure. |
| Document.SameUploadReusedNextRun | core/document.py:107-149 | With the hash kept in the session, the next run reuses the store built for identical bytes. |
| Chat.HandleChatInput | web_service/core/chat.py:40-73 | An empty or missing question changes nothing. A question with no `chat_history` key raises at the append and changes nothing. Otherwise a user turn with the question is appended after the untouched earlier turns. The model gets the retriever's context and the unchanged question. A successful turn adds exactly two entries, the second being the assistant's answer. A failed generation leaves only the user turn. No other key changes. |
| Chat.HandleChatInputKeepsLog | web_service/core/chat.py:46-73 | The history only grows. If every assistant turn directly followed a user turn before a turn was handled, that still holds afterwards. |
| Ui.InitSessionState | web_service/utils/ui.py:11-18 | Existing `chat_history`, `file_hash` and `vectorstore` are never overwritten. Missing ones become `[]`, `None` and `None`, so all three keys exist afterwards. |
| Ui.InitIdempotent | web_service/utils/ui.py:11-18 | Initialising twice equals initialising once. |
| Ui.ResetSessionState | web_service/utils/ui.py:345-350 | Reset sets history to `[]` and both `file_hash` and `vectorstore` to `None`. The session id survives. |
| Ui.ResetIsInitialised | web_service/utils/ui.py:345-349 | A reset state is already initialised. It equals a freshly initialised session with the same id. |
| Ui.Slider | web_service/utils/ui.py:248-263 | A slider never raises. Its range is widened to take in the default. The value is the default, or a user position on the step grid from the widened minimum. It lies within the widened range, and within [min, max] whenever the default does. |
| Ui.ConfigureSidebar | web_service/utils/ui.py:241-270 | Without reset, a configuration is returned and the session is untouched. Chunk size is in [100, 2000], overlap in [0, 500] and vector_top_k in [1, 20]. With reranking on, rerank_top_k >= 1, and it exceeds vector_top_k only as 2 over 1. With reranking off, rerank_top_k == vector_top_k. Temperature is in [0, 1] and max_tokens in [256, 4096]. Pressing reset resets the session and ends the run. |
| Ui.ConfigureWith | web_service/utils/ui.py:241-270 | Without reset, each returned field is its widget's value: the six sliders and the checkbox, with rerank_top_k being the rerank slider when reranking is on and vector_top_k otherwise. As written, the overlap maximum is 500 and the rerank default is 2. Corrected, they are min(500, chunk_size) and min(2, vector_top_k). Reset resets the session and ends the run. |
| Ui.OverlapAboveChunkSizeStopsRun | web_service/utils/ui.py:248-249 | Nothing ties overlap to chunk size: the sidebar returns overlap 500 with chunk size 100, and building the processor from those settings fails. |
| Ui.RerankDefaultAboveMax | web_service/utils/ui.py:254-257 | With vector_top_k = 1, reranking on and the rerank slider untouched, the sidebar returns rerank_top_k = 2 > vector_top_k = 1, outside the declared bounds. |
| Ui.ConfigureSidebarFixed | web_service/utils/ui.py:248-257 | With the overlap maximum capped at the chunk size and the rerank default capped at vector_top_k, every returned configuration keeps all declared bounds, including rerank_top_k <= vector_top_k and overlap <= chunk size. Untouched sliders give overlap 50 and rerank_top_k min(2, vector_top_k). |
| Ui.FixedSidebarBuildsProcessor | web_service/utils/ui.py:248-249 | Every configuration the corrected sidebar returns builds a processor without error. |

## Findings

| source | as written | input that shows it | evidently intended | confidence | as-written member | corrected member |
|---|---|---|---|---|---|---|
| core/document.py:109 | The reuse test compares against `self.file_hash`. That is `None` in a new processor (core/document.py:28), and web_service/app.py:29 builds a new processor on every run. | The same file processed on two consecutive runs is chunked, embedded and upserted twice. Nothing deletes from the namespace and `add_documents` (core/document.py:100) adds the chunks again, so duplicate chunks accumulate in the session's namespace. | Remember the hash in `st.session_state.file_hash` (a key the UI initialises and resets but nothing writes), so identical bytes reuse the store. | not executed; high | Document.SameUploadRebuiltNextRun | Document.ProcessAndStorePersisted |
| web_service/utils/ui.py:257 | The rerank slider has `value=2` with `max_value=vector_top_k`. | vector_top_k = 1 with reranking enabled and the rerank slider untouched: rerank_top_k = 2 > vector_top_k = 1. | A default no larger than the maximum, e.g. `min(2, vector_top_k)`, so that rerank_top_k <= vector_top_k. | not executed; medium (the outcome rests on Streamlit widening a slider's range to take in its default, which is library behaviour) | Ui.RerankDefaultAboveMax | Ui.ConfigureSidebarFixed |
| web_service/utils/ui.py:248-249 | The overlap slider's maximum 500 does not depend on the chunk size slider, whose minimum is 100. | chunk size 100 and overlap 500: the processor built at web_service/app.py:29 raises in its text splitter and the run stops. | Cap the overlap slider at the chunk size, e.g. `max_value=min(500, chunk_size)`. | not executed; medium (the `ValueError` for overlap above chunk size is the text splitter's, which is library behaviour) | Ui.OverlapAboveChunkSizeStopsRun | Ui.FixedSidebarBuildsProcessor |

## Left out

- Text chunking (`create_documents`, core/document.py:123) is library code. It is folded into the `ingest` parameter, so chunk coverage and overlap are not modelled. The splitter's construction (core/document.py:21-26) is modelled only through its argument check in `Document.NewProcessor`.
- Document.NewProcessor: of the text splitter's argument checks, only the `ValueError` for an overlap above the chunk size is modelled. Checks on a non-positive chunk size or a negative overlap are not, and the sidebar never produces such values.
- Document.ProcessAndStore: the hosted namespace keeps the chunks of every earlier upload in the session, and every re-ingest adds its chunks again, because nothing deletes and `add_documents` assigns new ids (core/document.py:94-100). `ingest(namespace, text)` returns a handle that depends only on the namespace and the text, so this accumulation is not modelled.
- Document.ProcessAndStorePersisted: the same accumulation in the namespace is not modelled. The correction only stops identical bytes from being ingested again.
- The HTTP clients and model servers (core/embeddings.py, core/reranker.py, embedding_service/app.py) are request/response wrappers over remote models.
- The vector database (`similarity_search`, `add_documents`, `inference.rerank`), the LLM chain and its prompt template are parameters, and each is a total function.
  - Their exceptions are not modelled, apart from a generation failure in `Chat`.
  - The unused `self.reranker` index handle (core/retriever.py:23-24) is omitted.
- Cloudinary upload, the OCR HTTP call and MD5 are parameters. So are UTF-8 decoding and its `UnicodeDecodeError`, which is modelled as `None`.
- PDF rasterisation, grayscale conversion and PNG compression are I/O. So are temp-file and directory creation and deletion (core/document.py:36-37, 50-53, 84-85, 112-121) and `doc.close()`. A raising page is the `failAt` parameter.
- Streamlit rendering, CSS, HTML, chat display, `display_relevant_context`, the spinner and caption, and `StreamHandler` are UI code.
- The async entry point and orchestration in web_service/app.py, and configuration loading (utils/config.py, web_service/utils/config.py), are left out. The exception is the two-run scenario of the first finding.
- Scores are integers, an abstract total order without NaN. The temperature slider (0.0 to 1.0, step 0.1) is modelled in tenths. `top_p` and `max_tokens` only configure the remote model.
- An exception inside `predict` (the service's HTTP 500 path, reranking_service/app.py:46-47) is not modelled, because `predict` is total.
- Document.PdfRouteAnyCase: case folding covers ASCII letters only. No other character lowers to '.', 'p', 'd' or 'f', so the route decision is unaffected.
- Ui.Slider: the widening of the range to take in an out-of-range default is Streamlit's behaviour (Streamlit is not part of this model); it is modelled as Streamlit's slider code does it: the bounds become the minimum and maximum of the declared bound and the value. Streamlit's other checks, including any handling of `min_value == max_value`, and widget values carried across reruns are not modelled. A user's choice is a handle position in steps from the widened minimum, kept within range.
- Ui.ConfigureSidebar: its rerank bound (rerank_top_k exceeds vector_top_k only as 2 over 1) rests on the assumed slider widening.
- Ui.ConfigureWith: its returned values rest on the assumed slider widening whenever the rerank default lies outside [1, vector_top_k].
- Ui.RerankDefaultAboveMax: the returned rerank_top_k = 2 rests on the assumed slider widening; a Streamlit that raised instead would stop the run.
- Retriever.InitVectorstore: the Python code re-points the shared store object (core/retriever.py:31), which the session and the processor also hold (web_service/app.py:40, 54). `Store` is a value here, so that aliasing is not modelled. It is harmless, because every namespace involved is the same memoised session id.
- Retriever.GetRelevantDocuments: a vector store counts as falsy only when it is `None`.
- Logging statements are left out.

=== FILE: chat.dfy ===
/** The chat turn handler (web_service/core/chat.py): record the question,
    answer it from the retrieved context, record the answer. The prompt,
    model and output parser form the parameter `llm`. */
module Chat {
  import opened Wrappers
  import opened Session
  import Retriever

  /** The chain after its context and question are filled in: the model's
      answer, or `None` when generation raised. */
  type Llm = (string, string) -> Option<string>

  datatype ChatOutcome =
    | NoQuestion        // the input box returned nothing (or "")
    | Answered(answer: string)
    | GenerationFailed  // the chain raised after the question was recorded
    | MissingHistory    // `chat_history` absent: the append raises

  /** Every assistant turn directly follows a user turn. */
  ghost predicate WellFormedLog(h: seq<Turn>)
  {
    forall i :: 0 <= i < |h| && h[i].role == Assistant ==> i > 0 && h[i - 1].role == User
  }

  /** `handle_chat_input`: `input` is what the chat box returned, `asked` and
      `answered` the two formatted clock readings. */
  function HandleChatInput(st: SessionState, input: Option<string>,
                           ret: Retriever.Retriever, search: Retriever.Search,
                           rerank: Retriever.Rerank, llm: Llm,
                           asked: string, answered: string): (r: (SessionState, ChatOutcome))
    // a falsy question changes nothing
    ensures (input.None? || input.value == "") ==> r == (st, NoQuestion)
    // a question with no `chat_history` key: the append raises, nothing changes
    ensures input.Some? && input.value != "" && st.chatHistory.Absent? ==> r == (st, MissingHistory)
    ensures r.1.MissingHistory? ==> r.0 == st
    // only the history may change
    ensures r.0.fileHash == st.fileHash && r.0.vectorstore == st.vectorstore
            && r.0.sessionId == st.sessionId
    ensures input.Some? && input.value != "" && st.chatHistory.Present? ==>
      var h := st.chatHistory.value;
      var q := input.value;
      r.0.chatHistory.Present? &&
      var h' := r.0.chatHistory.value;
      // the question is appended as a user turn; earlier turns are untouched
      |h'| > |h| && h'[..|h|] == h && h'[|h|] == Turn(User, q, asked) &&
      // the model sees the retrieved context and the question unchanged
      var reply := llm(Retriever.Invoke(ret, q, search, rerank), q);
      (reply.Some? ==>
         r.1 == Answered(reply.value) && |h'| == |h| + 2 &&
         h'[|h| + 1] == Turn(Assistant, reply.value, answered)) &&
      (reply.None? ==> r.1 == GenerationFailed && |h'| == |h| + 1)
  {
    match input
    case None => (st, NoQuestion)
    case Some(q) =>
      if q == "" then (st, NoQuestion)
      else match st.chatHistory
        case Absent => (st, MissingHistory)
        case Present(h) =>
          var withQuestion := h + [Turn(User, q, asked)];
          var context := Retriever.Invoke(ret, q, search, rerank);
          match llm(context, q)
          case None => (st.(chatHistory := Present(withQuestion)), GenerationFailed)
          case Some(answer) =>
            (st.(chatHistory := Present(withQuestion + [Turn(Assistant, answer, answered)])),
             Answered(answer))
  }

  /** The history only grows, and keeps its shape: if every assistant turn
      followed a user turn before, it still does after any turn handled. */
  lemma HandleChatInputKeepsLog(st: SessionState, input: Option<string>,
                                ret: Retriever.Retriever, search: Retriever.Search,
                                rerank: Retriever.Rerank, llm: Llm,
                                asked: string, answered: string)
    requires st.chatHistory.Present? && WellFormedLog(st.chatHistory.value)
    ensures var r := HandleChatInput(st, input, ret, search, rerank, llm, asked, answered);
            r.0.chatHistory.Present? &&
            st.chatHistory.value <= r.0.chatHistory.value &&
            WellFormedLog(r.0.chatHistory.value)
  {
    var r := HandleChatInput(st, input, ret, search, rerank, llm, asked, answered);
    var h := st.chatHistory.value;
    var h' := r.0.chatHistory.value;
    forall i | 0 <= i < |h'| && h'[i].role == Assistant
      ensures i > 0 && h'[i - 1].role == User
    {
      if i < |h| {
        assert h'[i] == h[i] && h'[i - 1] == h[i - 1];
      }
    }
  }
}

=== FILE: document.dfy ===
/** Document ingestion (core/document.py): the route from an uploaded file to
    page images, the OCR text fold over those images, and the hash-based
    choice between rebuilding and reusing the session's vector store.
    Rasterising, uploading, OCR, hashing, text splitting and embedding are
    parameters standing for the external calls. */
module Document {
  import opened Wrappers
  import opened Text
  import opened Session
  import Utils

  newtype byte = x: int | 0 <= x < 256

  /** An uploaded file: its name, MIME type and bytes. */
  datatype Upload = Upload(name: string, mimeType: string, content: seq<byte>)

  /** `DocumentProcessor`'s state. The chunking settings only configure the
      text splitter. */
  datatype Processor = Processor(
    chunkSize: int,
    chunkOverlap: int,
    vectorstore: Option<Store>,
    fileHash: Option<string>,
    sessionId: string,
    namespace: string)

  /** `DocumentProcessor.__init__`: the text splitter is built first, and
      it raises `ValueError` when the overlap exceeds the chunk size; then no
      store, no remembered hash, and the namespace equal to the session id
      (`session_id or generate_session_id()`). On the failure the session id
      has not been generated, so the session state is untouched. */
  function NewProcessor(chunkSize: int, chunkOverlap: int, sessionIdArg: Option<string>,
                        st: SessionState, now: string, uuid: string): (r: Result<(Processor, SessionState), string>)
    ensures r.Failure? <==> chunkOverlap > chunkSize
    ensures r.Success? ==>
      var (p, st') := r.value;
      && p.vectorstore.None? && p.fileHash.None?
      && p.namespace == p.sessionId
      && p.chunkSize == chunkSize && p.chunkOverlap == chunkOverlap
      && (sessionIdArg.Some? && sessionIdArg.value != "" ==>
            p.sessionId == sessionIdArg.value && st' == st)
      && ((sessionIdArg.None? || sessionIdArg.value == "") ==>
            (p.sessionId, st') == Utils.GenerateSessionId(st, now, uuid) &&
            st' == st.(sessionId := Present(p.sessionId)) &&
            (st.sessionId.Present? ==> p.sessionId == st.sessionId.value) &&
            (st.sessionId.Absent? ==> p.sessionId == now + "_" + uuid))
  {
    if chunkOverlap > chunkSize then
      Failure("ValueError: chunk_overlap larger than chunk_size")
    else
      var (id, st') :=
        if sessionIdArg.Some? && sessionIdArg.value != "" then (sessionIdArg.value, st)
        else Utils.GenerateSessionId(st, now, uuid);
      Success((Processor(chunkSize, chunkOverlap, None, None, id, id), st'))
  }

  // ---------------------------------------------------------------------
  // Choosing the PDF route

  /** `str.lower()` on one character (ASCII letters; no other character
      lowers to '.', 'p', 'd' or 'f'). */
  function Lower(c: char): char
  {
    if 'A' <= c <= 'Z' then (c as int + 32) as char else c
  }

  function LowerStr(s: string): (r: string)
    ensures |r| == |s|
    ensures forall i :: 0 <= i < |s| ==> r[i] == Lower(s[i])
  {
    seq(|s|, i requires 0 <= i < |s| => Lower(s[i]))
  }

  /** `file_path.lower().endswith('.pdf')`. */
  predicate IsPdfPath(path: string)
  {
    var low := LowerStr(path);
    |low| >= 4 && low[|low| - 4..] == ".pdf"
  }

  /** The PDF route is taken exactly for paths ending in ".pdf" in any mix of
      letter cases. */
  lemma PdfRouteAnyCase(path: string)
    ensures IsPdfPath(path) <==>
      |path| >= 4 && path[|path| - 4] == '.' &&
      path[|path| - 3] in "pP" && path[|path| - 2] in "dD" && path[|path| - 1] in "fF"
  {
    var low := LowerStr(path);
    if |path| >= 4 {
      var n := |path|;
      assert low[n - 4..] == [low[n - 4], low[n - 3], low[n - 2], low[n - 1]];
    }
  }

  // ---------------------------------------------------------------------
  // convert_pdf_to_images

  /** `os.path.join(folder, name)` for a relative `name`. */
  function PathJoin(folder: string, name: string): string
  {
    if folder == "" then name
    else if folder[|folder| - 1] == '/' then folder + name
    else folder + "/" + name
  }

  function Digit(d: nat): char
    requires d < 10
  {
    ('0' as int + d) as char
  }

  /** `str(n)` for a natural number. */
  function NatToString(n: nat): (r: string)
    ensures |r| > 0
    ensures n < 10 <==> |r| == 1
  {
    if n < 10 then [Digit(n)] else NatToString(n / 10) + [Digit(n % 10)]
  }

  /** Distinct numbers print differently. */
  lemma {:induction false} NatToStringInjective(a: nat, b: nat)
    requires NatToString(a) == NatToString(b)
    ensures a == b
  {
    var s := NatToString(a);
    if a >= 10 && b >= 10 {
      assert s[..|s| - 1] == NatToString(a / 10);
      assert NatToString(b) [..|s| - 1] == NatToString(b / 10);
      NatToStringInjective(a / 10, b / 10);
      assert Digit(a % 10) == s[|s| - 1] == Digit(b % 10);
    }
  }

  /** The file name under which page `i` (from 0) is kept. */
  function PagePath(folder: string, i: nat): string
  {
    PathJoin(folder, "compressed_page_" + NatToString(i + 1) + ".png")
  }

  /** Different pages are written to different files. */
  lemma PagePathInjective(folder: string, i: nat, j: nat)
    requires PagePath(folder, i) == PagePath(folder, j)
    ensures i == j
  {
    var a := "compressed_page_" + NatToString(i + 1) + ".png";
    var b := "compressed_page_" + NatToString(j + 1) + ".png";
    var pre := if folder == "" then "" else if folder[|folder| - 1] == '/' then folder else folder + "/";
    assert PathJoin(folder, a) == pre + a && PathJoin(folder, b) == pre + b;
    assert a == (pre + a)[|pre|..];
    assert b == (pre + b)[|pre|..];
    assert NatToString(i + 1) == a[16..|a| - 4];
    assert NatToString(j + 1) == b[16..|b| - 4];
    NatToStringInjective(i + 1, j + 1);
  }

  /** How many pages `convert_pdf_to_images` gets through: all of them, or
      those before the page whose rendering raises (`failAt`; 0 also stands
      for `fitz.open` raising). */
  function PagesDone(pageCount: nat, failAt: Option<nat>): (r: nat)
    ensures r <= pageCount
    ensures failAt.None? ==> r == pageCount
  {
    if failAt.Some? && failAt.value < pageCount then failAt.value else pageCount
  }

  /** `convert_pdf_to_images`: one compressed page image per page, in page
      order; an exception stops the loop and the paths so far are returned. */
  method ConvertPdfToImages(folder: string, pageCount: nat, failAt: Option<nat>)
    returns (paths: seq<string>)
    ensures |paths| == PagesDone(pageCount, failAt)
    ensures forall i :: 0 <= i < |paths| ==> paths[i] == PagePath(folder, i)
    ensures forall i, j :: 0 <= i < j < |paths| ==> paths[i] != paths[j]
  {
    paths := [];
    var i := 0;
    while i < pageCount
      invariant 0 <= i <= PagesDone(pageCount, failAt)
      invariant |paths| == i
      invariant forall k :: 0 <= k < i ==> paths[k] == PagePath(folder, k)
    {
      if failAt == Some(i) {
        break;
      }
      paths := paths + [PagePath(folder, i)];
      i := i + 1;
    }
    forall a, b | 0 <= a < b < |paths|
      ensures paths[a] != paths[b]
    {
      if paths[a] == paths[b] {
        PagePathInjective(folder, a, b);
      }
    }
  }

  // ---------------------------------------------------------------------
  // extract_text_from_pdf_or_image

  /** `upload_image_to_fileio`: a URL, or `None` when the upload raised. */
  type Uploader = string -> Option<string>

  /** The OCR service's `fullText` for an image URL, or `None` on failure. */
  type Ocr = string -> Option<string>

  /** The text read from an uploaded image's URL. */
  type Reader = string -> string

  /** `extract_text_from_image_url` over the given OCR service. */
  function ReadWith(ocr: Ocr): Reader
  {
    url => Utils.ExtractTextFromImageUrl(url, ocr)
  }

  /** `if image_url:` — an empty URL counts as a failed upload. */
  predicate Uploaded(path: string, upload: Uploader)
  {
    upload(path).Some? && upload(path).value != ""
  }

  /** What one image adds to the combined text: its cleaned OCR text and a
      blank line when the upload succeeded, nothing otherwise. */
  function PageText(path: string, upload: Uploader, read: Reader): string
  {
    if Uploaded(path, upload) then read(upload(path).value) + "\n\n" else ""
  }

  /** Reference definition of the fold: the contributions in path order. */
  function CombinedText(paths: seq<string>, upload: Uploader, read: Reader): string
  {
    if |paths| == 0 then ""
    else CombinedText(paths[..|paths| - 1], upload, read) + PageText(paths[|paths| - 1], upload, read)
  }

  /** The OCR texts of the images whose upload succeeded, in order. */
  function OcrTexts(paths: seq<string>, upload: Uploader, read: Reader): seq<string>
  {
    if |paths| == 0 then []
    else
      var last := paths[|paths| - 1];
      OcrTexts(paths[..|paths| - 1], upload, read)
        + (if Uploaded(last, upload) then [read(upload(last).value)] else [])
  }

  /** The combined text is the successful pages' texts joined by a blank line
      with a trailing blank line, and "" when no upload succeeded: failed
      uploads leave no trace. */
  lemma {:induction false} CombinedTextShape(paths: seq<string>, upload: Uploader, read: Reader)
    ensures var ts := OcrTexts(paths, upload, read);
            CombinedText(paths, upload, read) == if |ts| == 0 then "" else Join("\n\n", ts) + "\n\n"
  {
    if |paths| > 0 {
      var init := paths[..|paths| - 1];
      var last := paths[|paths| - 1];
      CombinedTextShape(init, upload, read);
      var ts := OcrTexts(init, upload, read);
      assert CombinedText(paths, upload, read) == CombinedText(init, upload, read) + PageText(last, upload, read);
      if Uploaded(last, upload) {
        var t := read(upload(last).value);
        assert OcrTexts(paths, upload, read) == ts + [t];
        if |ts| > 0 {
          JoinSnoc("\n\n", ts, t);
          assert Join("\n\n", ts) + "\n\n" + (t + "\n\n") == Join("\n\n", ts + [t]) + "\n\n";
        } else {
          assert ts + [t] == [t];
        }
      } else {
        assert OcrTexts(paths, upload, read) == ts + [];
        assert ts + [] == ts;
      }
    }
  }

  /** With no images, or every upload failing, the text is empty. */
  lemma {:induction false} AllUploadsFailed(paths: seq<string>, upload: Uploader, read: Reader)
    requires forall i :: 0 <= i < |paths| ==> !Uploaded(paths[i], upload)
    ensures CombinedText(paths, upload, read) == ""
  {
    if |paths| > 0 {
      AllUploadsFailed(paths[..|paths| - 1], upload, read);
    }
  }

  /** Folding one more image appends that image's contribution. */
  lemma CombinedTextSnoc(p: seq<string>, last: string, upload: Uploader, read: Reader)
    ensures CombinedText(p + [last], upload, read) == CombinedText(p, upload, read) + PageText(last, upload, read)
  {
    assert (p + [last])[..|p|] == p;
  }

  /** A failed upload changes nothing wherever it occurs among the images. */
  lemma {:induction false} FailedUploadSkipped(before: seq<string>, path: string, after: seq<string>,
                                               upload: Uploader, read: Reader)
    requires !Uploaded(path, upload)
    ensures CombinedText(before + [path] + after, upload, read) == CombinedText(before + after, upload, read)
  {
    if |after| == 0 {
      assert before + [path] + after == before + [path];
      assert before + after == before;
      CombinedTextSnoc(before, path, upload, read);
    } else {
      var init := after[..|after| - 1];
      var last := after[|after| - 1];
      FailedUploadSkipped(before, path, init, upload, read);
      assert before + [path] + after == (before + [path] + init) + [last];
      assert before + after == (before + init) + [last];
      CombinedTextSnoc(before + [path] + init, last, upload, read);
      CombinedTextSnoc(before + init, last, upload, read);
    }
  }

  /** The images OCR'd for a file: the rendered pages of a PDF, or the file
      itself. */
  function ImagePaths(filePath: string, folder: string, pageCount: nat, failAt: Option<nat>): seq<string>
  {
    if IsPdfPath(filePath)
    then seq(PagesDone(pageCount, failAt), i requires 0 <= i < PagesDone(pageCount, failAt) => PagePath(folder, i))
    else [filePath]
  }

  /** `extract_text_from_pdf_or_image`: route the file to its images, then
      fold the per-image text into one string. */
  method ExtractTextFromPdfOrImage(filePath: string, folder: string, pageCount: nat,
                                   failAt: Option<nat>, upload: Uploader, ocr: Ocr)
    returns (text: string)
    ensures text == CombinedText(ImagePaths(filePath, folder, pageCount, failAt), upload, ReadWith(ocr))
  {
    var imagePaths: seq<string>;
    if IsPdfPath(filePath) {
      imagePaths := ConvertPdfToImages(folder, pageCount, failAt);
    } else {
      imagePaths := [filePath];
    }
    assert imagePaths == ImagePaths(filePath, folder, pageCount, failAt);
    text := FoldPages(imagePaths, upload, ReadWith(ocr));
  }

  /** The loop of `extract_text_from_pdf_or_image`: for each image, upload
      it and, when that gives a URL, append the page text and a blank line. */
  method FoldPages(imagePaths: seq<string>, upload: Uploader, read: Reader) returns (text: string)
    ensures text == CombinedText(imagePaths, upload, read)
  {
    text := "";
    var i := 0;
    while i < |imagePaths|
      invariant 0 <= i <= |imagePaths|
      invariant text == CombinedText(imagePaths[..i], upload, read)
    {
      var url := upload(imagePaths[i]);
      if url.Some? && url.value != "" {
        var pageText := read(url.value);
        text := text + pageText + "\n\n";
      }
      assert imagePaths[..i + 1][..i] == imagePaths[..i];
      i := i + 1;
    }
    assert imagePaths[..i] == imagePaths;
  }

  // ---------------------------------------------------------------------
  // process_and_store_embeddings

  /** The text an upload is indexed under: a plain-text file decoded as UTF-8
      (`None` when decoding raises), anything else the OCR text of its copy. */
  function UploadText(upload: Upload, decode: seq<byte> -> Option<string>, ocrText: string): (r: Option<string>)
    ensures upload.mimeType == "text/plain" ==> r == decode(upload.content)
    ensures upload.mimeType != "text/plain" ==> r == Some(ocrText)
  {
    if upload.mimeType == "text/plain" then decode(upload.content) else Some(ocrText)
  }

  /** The processor and session state after handling an upload, and whether
      the store was rebuilt. */
  datatype Processed = Processed(proc: Processor, st: SessionState, reprocessed: bool)

  /** `process_and_store_embeddings` as written. `md5` is the hash, and
      `ingest(namespace, text)` is the store handle returned after the text's
      chunks are split, embedded and added to the namespace. `ocrText` is the
      text `extract_text_from_pdf_or_image` gives for a non-text upload; it is
      not tied to `ExtractTextFromPdfOrImage` here, because the route taken
      there depends on the temporary file's name, which ends in the upload's
      name. A decoding failure propagates: nothing changes. */
  function ProcessAndStore(proc: Processor, st: SessionState, upload: Upload,
                           md5: seq<byte> -> string, decode: seq<byte> -> Option<string>,
                           ocrText: string, ingest: (string, string) -> Store): (r: Result<Processed, string>)
    // the decision: rebuild iff the key is missing or the remembered hash differs
    ensures r.Success? ==>
      (r.value.reprocessed <==> st.vectorstore.Absent? || proc.fileHash != Some(md5(upload.content)))
    // rebuilding remembers the hash and publishes the new store in the session
    ensures r.Success? && r.value.reprocessed ==>
      UploadText(upload, decode, ocrText).Some? &&
      var text := UploadText(upload, decode, ocrText).value;
      r.value.proc == proc.(vectorstore := Some(ingest(proc.namespace, text)),
                            fileHash := Some(md5(upload.content))) &&
      r.value.st == st.(vectorstore := Present(r.value.proc.vectorstore))
    // reusing keeps the hash and takes the store from the session
    ensures r.Success? && !r.value.reprocessed ==>
      st.vectorstore.Present? &&
      r.value.proc == proc.(vectorstore := st.vectorstore.value) && r.value.st == st
    ensures r.Failure? <==>
      (st.vectorstore.Absent? || proc.fileHash != Some(md5(upload.content))) &&
      UploadText(upload, decode, ocrText).None?
  {
    var currentHash := md5(upload.content);
    if st.vectorstore.Absent? || proc.fileHash != Some(currentHash) then
      match UploadText(upload, decode, ocrText)
      case None => Failure("UnicodeDecodeError")
      case Some(text) =>
        var store := ingest(proc.namespace, text);
        var proc' := proc.(vectorstore := Some(store), fileHash := Some(currentHash));
        Success(Processed(proc', st.(vectorstore := Present(Some(store))), true))
    else
      Success(Processed(proc.(vectorstore := st.vectorstore.value), st, false))
  }

  /** A processor fresh from its constructor remembers no hash, and a hash is
      always a string, so it always rebuilds. The application constructs a
      new processor on every run, so identical re-uploads are never reused. */
  lemma FreshProcessorAlwaysReprocesses(chunkSize: int, chunkOverlap: int, sessionIdArg: Option<string>,
                                        st0: SessionState, now: string, uuid: string,
                                        st: SessionState, upload: Upload,
                                        md5: seq<byte> -> string, decode: seq<byte> -> Option<string>,
                                        ocrText: string, ingest: (string, string) -> Store)
    ensures var made := NewProcessor(chunkSize, chunkOverlap, sessionIdArg, st0, now, uuid);
            made.Success? ==>
            var r := ProcessAndStore(made.value.0, st, upload, md5, decode, ocrText, ingest);
            r.Success? ==> r.value.reprocessed
  {
  }

  /** Two runs uploading the same bytes: the second run's new processor
      rebuilds the store again. */
  lemma SameUploadRebuiltNextRun(chunkSize: int, chunkOverlap: int, id: string,
                                 st: SessionState, upload: Upload,
                                 md5: seq<byte> -> string, decode: seq<byte> -> Option<string>,
                                 ocrText: string, ingest: (string, string) -> Store)
    requires decode(upload.content).Some?
    ensures var first := ProcessAndStore(Processor(chunkSize, chunkOverlap, None, None, id, id),
                                         st, upload, md5, decode, ocrText, ingest);
            first.Success? &&
            var second := ProcessAndStore(Processor(chunkSize, chunkOverlap, None, None, id, id),
                                          first.value.st, upload, md5, decode, ocrText, ingest);
            second.Success? && second.value.reprocessed
  {
  }

  /** The evidently intended deduplication: remember the hash in the session
      state (whose `file_hash` key the UI initialises and resets) rather than
      in the per-run processor. */
  function ProcessAndStorePersisted(proc: Processor, st: SessionState, upload: Upload,
                                    md5: seq<byte> -> string, decode: seq<byte> -> Option<string>,
                                    ocrText: string, ingest: (string, string) -> Store): (r: Result<Processed, string>)
    ensures r.Success? ==>
      (r.value.reprocessed <==>
         st.vectorstore.Absent? || st.fileHash != Present(Some(md5(upload.content))))
    ensures r.Success? && r.value.reprocessed ==>
      UploadText(upload, decode, ocrText).Some? &&
      var store := ingest(proc.namespace, UploadText(upload, decode, ocrText).value);
      r.value.proc == proc.(vectorstore := Some(store), fileHash := Some(md5(upload.content))) &&
      r.value.st == st.(vectorstore := Present(Some(store)),
                        fileHash := Present(Some(md5(upload.content))))
    ensures r.Success? && !r.value.reprocessed ==>
      st.vectorstore.Present? &&
      r.value.proc == proc.(vectorstore := st.vectorstore.value) && r.value.st == st
    ensures r.Failure? <==>
      (st.vectorstore.Absent? || st.fileHash != Present(Some(md5(upload.content)))) &&
      UploadText(upload, decode, ocrText).None?
  {
    var currentHash := md5(upload.content);
    if st.vectorstore.Absent? || st.fileHash != Present(Some(currentHash)) then
      match UploadText(upload, decode, ocrText)
      case None => Failure("UnicodeDecodeError")
      case Some(text) =>
        var store := ingest(proc.namespace, text);
        var proc' := proc.(vectorstore := Some(store), fileHash := Some(currentHash));
        Success(Processed(proc', st.(vectorstore := Present(Some(store)),
                                     fileHash := Present(Some(currentHash))), true))
    else
      Success(Processed(proc.(vectorstore := st.vectorstore.value), st, false))
  }

  /** With the hash kept in the session, the next run's fresh processor
      reuses the store built for identical bytes, without ingesting again. */
  lemma SameUploadReusedNextRun(chunkSize: int, chunkOverlap: int, id: string,
                                st: SessionState, upload: Upload,
                                md5: seq<byte> -> string, decode: seq<byte> -> Option<string>,
                                ocrText: string, ingest: (string, string) -> Store)
    requires decode(upload.content).Some?
    ensures var blank := Processor(chunkSize, chunkOverlap, None, None, id, id);
            var first := ProcessAndStorePersisted(blank, st, upload, md5, decode, ocrText, ingest);
            first.Success? &&
            var second := ProcessAndStorePersisted(blank, first.value.st, upload, md5, decode, ocrText, ingest);
            second.Success? && !second.value.reprocessed &&
            second.value.proc.vectorstore == first.value.proc.vectorstore
  {
  }
}

=== FILE: rerank_service.dfy ===
/** The reranking service's `/rerank` handler (reranking_service/app.py):
    score every document against the query, stable-sort by descending score,
    keep the first `top_k`. The cross-encoder is the parameter `predict`;
    scores are integers standing for an ordered score type without NaN. */
module RerankService {

  datatype ScoredDocument = ScoredDocument(text: string, score: int)

  /** Scores never increase along `xs`. */
  ghost predicate Descending(xs: seq<ScoredDocument>)
  {
    forall i, j :: 0 <= i < j < |xs| ==> xs[j].score <= xs[i].score
  }

  /** The entries of `xs` whose score is `v`, in their order in `xs`. */
  function WithScore(xs: seq<ScoredDocument>, v: int): seq<ScoredDocument>
  {
    if |xs| == 0 then []
    else (if xs[0].score == v then [xs[0]] else []) + WithScore(xs[1..], v)
  }

  /** Ties in `out` appear in the order they had in `xs`. */
  ghost predicate Stable(xs: seq<ScoredDocument>, out: seq<ScoredDocument>)
  {
    forall v :: WithScore(out, v) == WithScore(xs, v)
  }

  /** Document `i` is paired with the score the model gives the pair
      (query, document `i`): the `zip` of documents and predictions. */
  function ScoreAll(query: string, documents: seq<string>,
                    predict: (string, string) -> int): (r: seq<ScoredDocument>)
    ensures |r| == |documents|
    ensures forall i :: 0 <= i < |r| ==>
      r[i].text == documents[i] && r[i].score == predict(query, documents[i])
  {
    seq(|documents|, i requires 0 <= i < |documents| =>
      ScoredDocument(documents[i], predict(query, documents[i])))
  }

  /** Places `x` after every entry of `ys` that scores strictly higher. */
  function Insert(x: ScoredDocument, ys: seq<ScoredDocument>): (r: seq<ScoredDocument>)
    ensures multiset(r) == multiset(ys) + multiset{x}
    ensures |r| == |ys| + 1
    ensures r[0] == x || (|ys| > 0 && r[0] == ys[0])
  {
    if |ys| == 0 then [x]
    else if ys[0].score <= x.score then [x] + ys
    else
      assert ys == [ys[0]] + ys[1..];
      [ys[0]] + Insert(x, ys[1..])
  }

  lemma {:induction false} InsertDescending(x: ScoredDocument, ys: seq<ScoredDocument>)
    requires Descending(ys)
    ensures Descending(Insert(x, ys))
  {
    if |ys| > 0 && ys[0].score > x.score {
      var rest := Insert(x, ys[1..]);
      InsertDescending(x, ys[1..]);
      assert rest[0].score <= ys[0].score;
      var r := [ys[0]] + rest;
      forall i, j | 0 <= i < j < |r|
        ensures r[j].score <= r[i].score
      {
        if i == 0 && j > 1 {
          assert r[j].score <= rest[0].score;
        }
      }
    }
  }

  /** `sorted(xs, key=score, reverse=True)` by insertion. */
  function SortDesc(xs: seq<ScoredDocument>): (r: seq<ScoredDocument>)
    ensures multiset(r) == multiset(xs)
    ensures |r| == |xs|
    ensures Descending(r)
  {
    if |xs| == 0 then []
    else
      assert xs == [xs[0]] + xs[1..];
      InsertDescending(xs[0], SortDesc(xs[1..]));
      Insert(xs[0], SortDesc(xs[1..]))
  }

  lemma {:induction false} WithScoreAppend(a: seq<ScoredDocument>, b: seq<ScoredDocument>, v: int)
    ensures WithScore(a + b, v) == WithScore(a, v) + WithScore(b, v)
  {
    if |a| > 0 {
      assert (a + b)[1..] == a[1..] + b;
      WithScoreAppend(a[1..], b, v);
    } else {
      assert a + b == b;
    }
  }

  lemma {:induction false} InsertStable(x: ScoredDocument, ys: seq<ScoredDocument>, v: int)
    ensures WithScore(Insert(x, ys), v)
         == (if x.score == v then [x] else []) + WithScore(ys, v)
  {
    if |ys| == 0 {
    } else if ys[0].score <= x.score {
      WithScoreAppend([x], ys, v);
    } else {
      InsertStable(x, ys[1..], v);
      WithScoreAppend([ys[0]], Insert(x, ys[1..]), v);
    }
  }

  /** The sort is stable: for every score, the entries with that score keep
      their input order (Python's sort stays stable under `reverse=True`). */
  lemma {:induction false} SortDescStable(xs: seq<ScoredDocument>)
    ensures Stable(xs, SortDesc(xs))
  {
    forall v
      ensures WithScore(SortDesc(xs), v) == WithScore(xs, v)
    {
      SortDescStableAt(xs, v);
    }
  }

  lemma {:induction false} SortDescStableAt(xs: seq<ScoredDocument>, v: int)
    ensures WithScore(SortDesc(xs), v) == WithScore(xs, v)
  {
    if |xs| > 0 {
      SortDescStableAt(xs[1..], v);
      InsertStable(xs[0], SortDesc(xs[1..]), v);
    }
  }

  lemma WithScoreHead(xs: seq<ScoredDocument>)
    requires |xs| > 0
    ensures WithScore(xs, xs[0].score) == [xs[0]] + WithScore(xs[1..], xs[0].score)
  {
  }

  lemma {:induction false} WithScoreMember(xs: seq<ScoredDocument>, v: int)
    requires |WithScore(xs, v)| > 0
    ensures exists k :: 0 <= k < |xs| && xs[k].score == v
  {
    if xs[0].score != v {
      WithScoreMember(xs[1..], v);
      var k :| 0 <= k < |xs[1..]| && xs[1..][k].score == v;
      assert xs[k + 1].score == v;
    }
  }

  lemma NonEmptyAlike(a: seq<ScoredDocument>, b: seq<ScoredDocument>)
    requires forall v :: WithScore(b, v) == WithScore(a, v)
    ensures |a| > 0 ==> |b| > 0
  {
    if |a| > 0 {
      WithScoreHead(a);
      assert WithScore(b, a[0].score) == WithScore(a, a[0].score);
      WithScoreMember(b, a[0].score);
    }
  }

  /** A descending, stable rearrangement is unique: any two sequences that
      are descending and agree on every tie group are equal. So `SortDesc` is
      exactly the result of Python's stable reverse sort. */
  lemma {:induction false} StableDescendingUnique(a: seq<ScoredDocument>, b: seq<ScoredDocument>)
    requires Descending(a) && Descending(b)
    requires Stable(a, b)
    ensures a == b
  {
    NonEmptyAlike(a, b);
    NonEmptyAlike(b, a);
    if |a| > 0 {
      var m, n := a[0].score, b[0].score;
      WithScoreHead(a);
      WithScoreHead(b);
      assert WithScore(b, m) == WithScore(a, m);
      WithScoreMember(b, m);
      assert WithScore(a, n) == WithScore(b, n);
      WithScoreMember(a, n);
      assert m == n;
      assert WithScore(a, m)[0] == a[0];
      assert WithScore(b, m)[0] == b[0];
      assert a[0] == b[0];
      forall v
        ensures WithScore(b[1..], v) == WithScore(a[1..], v)
      {
        assert WithScore(b, v) == WithScore(a, v);
        var h := if a[0].score == v then [a[0]] else [];
        assert WithScore(a, v) == h + WithScore(a[1..], v);
        assert WithScore(b, v) == h + WithScore(b[1..], v);
        assert (h + WithScore(a[1..], v))[|h|..] == WithScore(a[1..], v);
        assert (h + WithScore(b[1..], v))[|h|..] == WithScore(b[1..], v);
      }
      StableDescendingUnique(a[1..], b[1..]);
      assert a == [a[0]] + a[1..] && b == [b[0]] + b[1..];
    }
  }

  /** Python's `xs[:k]`: a negative `k` counts from the end. */
  function SliceTo(xs: seq<ScoredDocument>, k: int): (r: seq<ScoredDocument>)
    ensures r <= xs
    ensures k >= 0 ==> |r| == if k < |xs| then k else |xs|
    ensures k < 0 ==> |r| == if |xs| + k > 0 then |xs| + k else 0
  {
    if k >= 0 then (if k < |xs| then xs[..k] else xs)
    else if |xs| + k > 0 then xs[..|xs| + k]
    else []
  }

  lemma {:induction false} WithScorePrefix(p: seq<ScoredDocument>, xs: seq<ScoredDocument>, v: int)
    requires p <= xs
    ensures WithScore(p, v) <= WithScore(xs, v)
  {
    WithScoreAppend(p, xs[|p|..], v);
    assert xs == p + xs[|p|..];
  }

  /** The `/rerank` handler's result for a request (query, documents, top_k). */
  function Rerank(query: string, documents: seq<string>, topK: int,
                  predict: (string, string) -> int): (r: seq<ScoredDocument>)
    // length: min(top_k, len(documents)), or Python's slice rule for negative top_k
    ensures topK >= 0 ==> |r| == if topK < |documents| then topK else |documents|
    ensures topK < 0 ==> |r| == if |documents| + topK > 0 then |documents| + topK else 0
    // every entry pairs an input document with that document's own score
    ensures forall i :: 0 <= i < |r| ==>
      r[i].text in documents && r[i].score == predict(query, r[i].text)
    // nothing invented or duplicated
    ensures multiset(r) <= multiset(ScoreAll(query, documents, predict))
    ensures Descending(r)
    // top-k: whatever was cut scores no higher than anything kept
    ensures forall x | x in multiset(ScoreAll(query, documents, predict)) - multiset(r) ::
      forall i :: 0 <= i < |r| ==> x.score <= r[i].score
    // ties: the kept entries of each score are the first ones of that score, in input order
    ensures forall v :: WithScore(r, v) <= WithScore(ScoreAll(query, documents, predict), v)
  {
    var scored := ScoreAll(query, documents, predict);
    TopKOfSorted(scored, topK);
    ScoreAllMembers(query, documents, predict, SliceTo(SortDesc(scored), topK));
    SliceTo(SortDesc(scored), topK)
  }

  /** Sort-then-slice keeps a descending sub-multiset whose every tie group is
      a prefix of the input's, and cuts only entries scoring no higher. */
  lemma TopKOfSorted(scored: seq<ScoredDocument>, topK: int)
    ensures multiset(SliceTo(SortDesc(scored), topK)) <= multiset(scored)
    ensures Descending(SliceTo(SortDesc(scored), topK))
    ensures forall x | x in multiset(scored) - multiset(SliceTo(SortDesc(scored), topK)) ::
      forall i :: 0 <= i < |SliceTo(SortDesc(scored), topK)| ==>
        x.score <= SliceTo(SortDesc(scored), topK)[i].score
    ensures forall v :: WithScore(SliceTo(SortDesc(scored), topK), v) <= WithScore(scored, v)
  {
    var sorted := SortDesc(scored);
    var r := SliceTo(sorted, topK);
    TopKCut(scored, sorted, r);
    TopKTies(scored, sorted, r);
  }

  lemma TopKCut(scored: seq<ScoredDocument>, sorted: seq<ScoredDocument>, r: seq<ScoredDocument>)
    requires multiset(sorted) == multiset(scored) && Descending(sorted)
    requires r <= sorted
    ensures multiset(r) <= multiset(scored)
    ensures Descending(r)
    ensures forall x | x in multiset(scored) - multiset(r) ::
      forall i :: 0 <= i < |r| ==> x.score <= r[i].score
  {
    var rest := sorted[|r|..];
    PrefixSplit(sorted, r);
    CutBelowKept(sorted, r);
    assert multiset(scored) - multiset(r) == multiset(rest);
  }

  lemma PrefixSplit(sorted: seq<ScoredDocument>, r: seq<ScoredDocument>)
    requires r <= sorted
    ensures multiset(sorted) == multiset(r) + multiset(sorted[|r|..])
  {
    assert sorted == r + sorted[|r|..];
  }

  lemma CutBelowKept(sorted: seq<ScoredDocument>, r: seq<ScoredDocument>)
    requires Descending(sorted) && r <= sorted
    ensures Descending(r)
    ensures forall x | x in multiset(sorted[|r|..]) ::
      forall i :: 0 <= i < |r| ==> x.score <= r[i].score
  {
    var n := |r|;
    var rest := sorted[n..];
    forall x: ScoredDocument | x in multiset(rest)
      ensures forall i :: 0 <= i < n ==> x.score <= r[i].score
    {
      var j :| 0 <= j < |rest| && rest[j] == x;
      assert sorted[n + j] == x;
    }
    forall i, j | 0 <= i < j < n
      ensures r[j].score <= r[i].score
    {
      assert r[i] == sorted[i] && r[j] == sorted[j];
    }
  }

  lemma TopKTies(scored: seq<ScoredDocument>, sorted: seq<ScoredDocument>, r: seq<ScoredDocument>)
    requires sorted == SortDesc(scored)
    requires r <= sorted
    ensures forall v :: WithScore(r, v) <= WithScore(scored, v)
  {
    SortDescStable(scored);
    forall v
      ensures WithScore(r, v) <= WithScore(scored, v)
    {
      WithScorePrefix(r, sorted, v);
    }
  }

  /** Every entry drawn from the scored documents is a document paired with
      its own score. */
  lemma ScoreAllMembers(query: string, documents: seq<string>,
                        predict: (string, string) -> int, r: seq<ScoredDocument>)
    requires multiset(r) <= multiset(ScoreAll(query, documents, predict))
    ensures forall i :: 0 <= i < |r| ==>
      r[i].text in documents && r[i].score == predict(query, r[i].text)
  {
    var scored := ScoreAll(query, documents, predict);
    forall i | 0 <= i < |r|
      ensures r[i].text in documents && r[i].score == predict(query, r[i].text)
    {
      assert r[i] in multiset(r);
      assert r[i] in multiset(scored);
      var k :| 0 <= k < |scored| && scored[k] == r[i];
    }
  }
}

=== FILE: retriever.dfy ===
/** The retrieval pipeline (core/retriever.py): similarity search in the
    session's namespace, optional reranking joined back to the hits by text,
    and the context string handed to the prompt. The vector index's search
    and the hosted reranker are the parameters `search` and `rerank`. */
module Retriever {
  import opened Wrappers
  import opened Text
  import opened Session
  import Utils
  import RerankService

  /** A retrieved chunk: its text and its metadata (the chunk's start offset). */
  datatype Doc = Doc(pageContent: string, startIndex: nat)

  datatype Retriever = Retriever(
    useReranker: bool,
    vectorTopK: int,
    rerankTopK: int,
    sessionId: string,
    namespace: string,
    vectorstore: Option<Store>)

  /** `vectorstore.similarity_search(query, k=..., namespace=...)`. */
  type Search = (Store, string, int, string) -> seq<Doc>

  /** `inference.rerank(query=..., documents=..., top_n=...)`: the texts of
      the returned results, in result order. */
  type Rerank = (string, seq<string>, int) -> seq<string>

  /** A retriever is scoped to its session: it searches the namespace named
      by its session id, and an attached store carries that namespace too. */
  ghost predicate Scoped(r: Retriever)
  {
    r.namespace == r.sessionId &&
    (r.vectorstore.Some? ==> r.vectorstore.value.namespace == r.sessionId)
  }

  /** `Retriever.__init__`: `session_id or generate_session_id()` (an empty
      string counts as missing), the namespace set to the session id, no
      store attached. Returns the retriever and the session state after any
      id generation. */
  function NewRetriever(useReranker: bool, vectorTopK: int, rerankTopK: int,
                        sessionIdArg: Option<string>, st: SessionState,
                        now: string, uuid: string): (r: (Retriever, SessionState))
    ensures Scoped(r.0) && r.0.vectorstore.None?
    ensures r.0.useReranker == useReranker && r.0.vectorTopK == vectorTopK
            && r.0.rerankTopK == rerankTopK
    ensures sessionIdArg.Some? && sessionIdArg.value != "" ==>
      r.0.sessionId == sessionIdArg.value && r.1 == st
    ensures (sessionIdArg.None? || sessionIdArg.value == "") ==>
      (r.0.sessionId, r.1) == Utils.GenerateSessionId(st, now, uuid) &&
      r.1 == st.(sessionId := Present(r.0.sessionId)) &&
      (st.sessionId.Present? ==> r.0.sessionId == st.sessionId.value) &&
      (st.sessionId.Absent? ==> r.0.sessionId == now + "_" + uuid)
  {
    var (id, st') :=
      if sessionIdArg.Some? && sessionIdArg.value != "" then (sessionIdArg.value, st)
      else Utils.GenerateSessionId(st, now, uuid);
    (Retriever(useReranker, vectorTopK, rerankTopK, id, id, None), st')
  }

  /** `init_vectorstore`: attach the store, re-pointed at this namespace. */
  function InitVectorstore(ret: Retriever, store: Store): (r: Retriever)
    ensures Scoped(ret) ==> Scoped(r)
    ensures r.vectorstore.Some? && r.vectorstore.value.id == store.id
    ensures r.(vectorstore := ret.vectorstore) == ret
  {
    ret.(vectorstore := Some(store.(namespace := ret.namespace)))
  }

  /** The texts sent to the reranker: the hits' contents, in hit order. */
  function Contents(docs: seq<Doc>): (r: seq<string>)
    ensures |r| == |docs|
    ensures forall i :: 0 <= i < |docs| ==> r[i] == docs[i].pageContent
  {
    seq(|docs|, i requires 0 <= i < |docs| => docs[i].pageContent)
  }

  /** Index of the first hit whose content is exactly `t`. */
  function FirstMatch(hits: seq<Doc>, t: string): (r: Option<nat>)
    ensures r.Some? ==>
      r.value < |hits| && hits[r.value].pageContent == t &&
      forall k :: 0 <= k < r.value ==> hits[k].pageContent != t
    ensures r.None? <==> t !in Contents(hits)
  {
    if |hits| == 0 then None
    else if hits[0].pageContent == t then Some(0)
    else match FirstMatch(hits[1..], t)
      case None => None
      case Some(k) => Some(k + 1)
  }

  /** What one rerank result contributes: the first hit with its text, or
      nothing when no hit has that text. */
  function Matched(hits: seq<Doc>, t: string): seq<Doc>
  {
    match FirstMatch(hits, t)
    case None => []
    case Some(k) => [hits[k]]
  }

  /** Reference definition of the join: each result in order contributes
      `Matched` for its text. */
  function MatchAll(results: seq<string>, hits: seq<Doc>): seq<Doc>
  {
    if |results| == 0 then []
    else MatchAll(results[..|results| - 1], hits) + Matched(hits, results[|results| - 1])
  }

  /** The result texts that occur among `pool`, in result order. */
  function KeepKnown(ts: seq<string>, pool: seq<string>): seq<string>
  {
    if |ts| == 0 then []
    else KeepKnown(ts[..|ts| - 1], pool) + (if ts[|ts| - 1] in pool then [ts[|ts| - 1]] else [])
  }

  /** The rerank join as the source writes it: for each result, scan the hits
      and append the first one whose content equals the result's text. */
  method JoinReranked(results: seq<string>, hits: seq<Doc>) returns (out: seq<Doc>)
    ensures out == MatchAll(results, hits)
  {
    out := [];
    var i := 0;
    while i < |results|
      invariant 0 <= i <= |results|
      invariant out == MatchAll(results[..i], hits)
    {
      ghost var before := out;
      var j := 0;
      while j < |hits|
        invariant 0 <= j <= |hits|
        invariant out == before
        invariant forall k :: 0 <= k < j ==> hits[k].pageContent != results[i]
      {
        if hits[j].pageContent == results[i] {
          out := out + [hits[j]];
          break;
        }
        j := j + 1;
      }
      assert out == before + Matched(hits, results[i]);
      assert results[..i + 1][..i] == results[..i];
      i := i + 1;
    }
    assert results[..i] == results;
  }

  /** The join keeps only hits, at most one per result, each the first hit
      carrying its text; its texts are the result texts that match some hit,
      in result order. */
  lemma {:induction false} MatchAllProperties(results: seq<string>, hits: seq<Doc>)
    ensures |MatchAll(results, hits)| <= |results|
    ensures forall i :: 0 <= i < |MatchAll(results, hits)| ==>
      MatchAll(results, hits)[i] in hits &&
      FirstMatch(hits, MatchAll(results, hits)[i].pageContent).Some? &&
      hits[FirstMatch(hits, MatchAll(results, hits)[i].pageContent).value]
        == MatchAll(results, hits)[i]
    ensures Contents(MatchAll(results, hits)) == KeepKnown(results, Contents(hits))
  {
    if |results| > 0 {
      var init := results[..|results| - 1];
      var t := results[|results| - 1];
      MatchAllProperties(init, hits);
      var m := Matched(hits, t);
      var prev := MatchAll(init, hits);
      assert MatchAll(results, hits) == prev + m;
      assert Contents(prev + m) == Contents(prev) + Contents(m);
      if FirstMatch(hits, t).Some? {
        assert Contents(m) == [t];
        var k := FirstMatch(hits, t).value;
        assert FirstMatch(hits, hits[k].pageContent) == Some(k) by {
          FirstMatchUnique(hits, t, k);
        }
      }
    }
  }

  lemma {:induction false} FirstMatchUnique(hits: seq<Doc>, t: string, k: nat)
    requires k < |hits| && hits[k].pageContent == t
    requires forall j :: 0 <= j < k ==> hits[j].pageContent != t
    ensures FirstMatch(hits, t) == Some(k)
  {
    if k > 0 {
      assert hits[0].pageContent != t;
      assert hits[1..][k - 1] == hits[k];
      FirstMatchUnique(hits[1..], t, k - 1);
    }
  }

  /** When every result text occurs among the hits, nothing is dropped. */
  lemma {:induction false} KeepKnownAll(ts: seq<string>, pool: seq<string>)
    requires forall i :: 0 <= i < |ts| ==> ts[i] in pool
    ensures KeepKnown(ts, pool) == ts
  {
    if |ts| > 0 {
      KeepKnownAll(ts[..|ts| - 1], pool);
      assert ts == ts[..|ts| - 1] + [ts[|ts| - 1]];
    }
  }

  /** `get_relevant_documents`: no store gives no documents; otherwise search
      this retriever's namespace for `vectorTopK` hits, and either return them
      as they are or join the reranker's results back onto them. */
  function GetRelevantDocuments(ret: Retriever, query: string,
                                search: Search, rerank: Rerank): (r: seq<Doc>)
    ensures ret.vectorstore.None? ==> r == []
    ensures ret.vectorstore.Some? && !ret.useReranker ==>
      r == search(ret.vectorstore.value, query, ret.vectorTopK, ret.namespace)
    ensures ret.vectorstore.Some? && ret.useReranker ==>
      var hits := search(ret.vectorstore.value, query, ret.vectorTopK, ret.namespace);
      var results := rerank(query, Contents(hits), ret.rerankTopK);
      r == MatchAll(results, hits) &&
      |r| <= |results| &&
      (forall i :: 0 <= i < |r| ==> r[i] in hits) &&
      Contents(r) == KeepKnown(results, Contents(hits))
  {
    match ret.vectorstore
    case None => []
    case Some(store) =>
      var hits := search(store, query, ret.vectorTopK, ret.namespace);
      if !ret.useReranker then hits
      else
        var results := rerank(query, Contents(hits), ret.rerankTopK);
        MatchAllProperties(results, hits);
        MatchAll(results, hits)
  }

  /** A scoped retriever searches the namespace equal to its session id,
      with reranking on or off: the hits come from that namespace and the
      reranker only reorders and filters them. */
  lemma SearchUsesSessionNamespace(ret: Retriever, query: string, search: Search, rerank: Rerank)
    requires Scoped(ret) && ret.vectorstore.Some?
    ensures var hits := search(ret.vectorstore.value, query, ret.vectorTopK, ret.sessionId);
            GetRelevantDocuments(ret, query, search, rerank)
            == if ret.useReranker then MatchAll(rerank(query, Contents(hits), ret.rerankTopK), hits)
               else hits
    ensures ret.vectorstore.value.namespace == ret.sessionId
  {
  }

  /** When every text the reranker returns is the content of some hit, the
      join drops nothing: the output holds one document per result, whose
      texts are the results in the reranker's order. */
  lemma RerankOfKnownTexts(ret: Retriever, query: string, search: Search, rerank: Rerank)
    requires ret.vectorstore.Some? && ret.useReranker
    requires var hits := search(ret.vectorstore.value, query, ret.vectorTopK, ret.namespace);
      var results := rerank(query, Contents(hits), ret.rerankTopK);
      forall i :: 0 <= i < |results| ==> results[i] in Contents(hits)
    ensures var hits := search(ret.vectorstore.value, query, ret.vectorTopK, ret.namespace);
            var results := rerank(query, Contents(hits), ret.rerankTopK);
            var out := GetRelevantDocuments(ret, query, search, rerank);
            |out| == |results| && Contents(out) == results
  {
    var hits := search(ret.vectorstore.value, query, ret.vectorTopK, ret.namespace);
    KeepKnownAll(rerank(query, Contents(hits), ret.rerankTopK), Contents(hits));
  }

  /** A reranker that answers with the texts of the reranking service's
      response to the same request. */
  function ServiceReranker(predict: (string, string) -> int): Rerank
  {
    (q: string, ds: seq<string>, n: int) => Texts(RerankService.Rerank(q, ds, n, predict))
  }

  /** With the reranking service as reranker, every result finds its hit: the
      output has exactly min(top_n, hits) documents, whose texts are the
      service's results in score order. */
  lemma RerankWithService(ret: Retriever, query: string, search: Search,
                          predict: (string, string) -> int)
    requires ret.vectorstore.Some? && ret.useReranker && ret.rerankTopK >= 0
    ensures var hits := search(ret.vectorstore.value, query, ret.vectorTopK, ret.namespace);
            var out := GetRelevantDocuments(ret, query, search, ServiceReranker(predict));
            |out| == (if ret.rerankTopK < |hits| then ret.rerankTopK else |hits|) &&
            Contents(out) == Texts(RerankService.Rerank(query, Contents(hits), ret.rerankTopK, predict))
  {
    var hits := search(ret.vectorstore.value, query, ret.vectorTopK, ret.namespace);
    var served := RerankService.Rerank(query, Contents(hits), ret.rerankTopK, predict);
    assert ServiceReranker(predict)(query, Contents(hits), ret.rerankTopK) == Texts(served);
    RerankOfKnownTexts(ret, query, search, ServiceReranker(predict));
  }

  function Texts(scored: seq<RerankService.ScoredDocument>): (r: seq<string>)
    ensures |r| == |scored|
    ensures forall i :: 0 <= i < |scored| ==> r[i] == scored[i].text
  {
    seq(|scored|, i requires 0 <= i < |scored| => scored[i].text)
  }

  /** The prompt context built from retrieved documents: their contents
      joined by a blank line, in retrieval order. */
  function Context(docs: seq<Doc>): string
  {
    Join("\n\n", Contents(docs))
  }

  /** `invoke`: the contents of the documents `get_relevant_documents`
      returns, each at its offset and separated by a blank line; "" when no
      document is returned. */
  function Invoke(ret: Retriever, query: string, search: Search, rerank: Rerank): (r: string)
    ensures var docs := GetRelevantDocuments(ret, query, search, rerank);
      && (|docs| == 0 ==> r == "")
      && (|docs| > 0 ==> |r| == SumLengths(Contents(docs)) + 2 * (|docs| - 1))
      && (forall i :: 0 <= i < |docs| ==>
            var o := Offset("\n\n", Contents(docs), i);
            var e := o + |docs[i].pageContent|;
            e <= |r| && r[o..e] == docs[i].pageContent &&
            (i + 1 < |docs| ==> (e + 2 <= |r| && r[e..e + 2] == "\n\n")))
  {
    var docs := GetRelevantDocuments(ret, query, search, rerank);
    ContextLayout(docs);
    Context(docs)
  }

  /** The context is "" for no documents; otherwise document `i`'s content
      sits at its offset followed by a blank line (except the last), and the
      length is the contents' total plus two per gap. */
  lemma ContextLayout(docs: seq<Doc>)
    ensures |docs| == 0 ==> Context(docs) == ""
    ensures |docs| > 0 ==> |Context(docs)| == SumLengths(Contents(docs)) + 2 * (|docs| - 1)
    ensures forall i :: 0 <= i < |docs| ==>
      var o := Offset("\n\n", Contents(docs), i);
      var e := o + |docs[i].pageContent|;
      e <= |Context(docs)| && Context(docs)[o..e] == docs[i].pageContent &&
      (i + 1 < |docs| ==> (e + 2 <= |Context(docs)| && Context(docs)[e..e + 2] == "\n\n"))
  {
    var cs := Contents(docs);
    if |docs| > 0 {
      JoinLength("\n\n", cs);
    }
    forall i | 0 <= i < |docs|
      ensures var o := Offset("\n\n", Contents(docs), i);
              var e := o + |docs[i].pageContent|;
              e <= |Context(docs)| && Context(docs)[o..e] == docs[i].pageContent &&
              (i + 1 < |docs| ==> (e + 2 <= |Context(docs)| && Context(docs)[e..e + 2] == "\n\n"))
    {
      assert cs[i] == docs[i].pageContent;
      JoinPiece("\n\n", cs, i);
    }
  }
}

=== FILE: session.dfy ===
/** The values kept in the web UI's per-session state (`st.session_state`). */
module Session {
  import opened Wrappers

  /** Whether a key is present in the session-state mapping. Distinct from
      Python's `None`, which a present key may hold (modelled with `Option`). */
  datatype Slot<+T> = Absent | Present(value: T)

  /** A handle on the hosted vector index, scoped to one namespace. `id`
      stands for the identity of the documents the index holds. */
  datatype Store = Store(namespace: string, id: nat)

  datatype Role = User | Assistant

  /** One chat-history entry: role, text and a formatted timestamp. */
  datatype Turn = Turn(role: Role, content: string, timestamp: string)

  /** The keys the application reads and writes in the session state. */
  datatype SessionState = SessionState(
    chatHistory: Slot<seq<Turn>>,
    fileHash: Slot<Option<string>>,
    vectorstore: Slot<Option<Store>>,
    sessionId: Slot<string>)

  /** A session nobody has touched yet: every key is missing. */
  const Empty := SessionState(Absent, Absent, Absent, Absent)
}

=== FILE: text.dfy ===
/** Python's `sep.join(items)` on strings, with the facts the rest of the model
    needs about where each item lands in the joined string. */
module Text {

  /** `sep.join(xs)`: the items in order, one separator between neighbours. */
  function Join(sep: string, xs: seq<string>): (r: string)
    ensures |xs| == 0 ==> r == ""
    ensures |xs| == 1 ==> r == xs[0]
    ensures |xs| > 1 ==> |r| >= |xs[0]| + |sep| && r[..|xs[0]|] == xs[0]
  {
    if |xs| == 0 then ""
    else if |xs| == 1 then xs[0]
    else xs[0] + sep + Join(sep, xs[1..])
  }

  /** Total length of the items. */
  function SumLengths(xs: seq<string>): nat
  {
    if |xs| == 0 then 0 else |xs[0]| + SumLengths(xs[1..])
  }

  /** Where item `i` starts in `Join(sep, xs)`. */
  function Offset(sep: string, xs: seq<string>, i: nat): nat
    requires i <= |xs|
  {
    SumLengths(xs[..i]) + i * |sep|
  }

  /** The joined string holds every item's characters plus one separator per gap. */
  lemma {:induction false} JoinLength(sep: string, xs: seq<string>)
    requires |xs| > 0
    ensures |Join(sep, xs)| == SumLengths(xs) + (|xs| - 1) * |sep|
  {
    if |xs| > 1 {
      JoinLength(sep, xs[1..]);
    }
  }

  lemma OffsetStep(sep: string, xs: seq<string>, i: nat)
    requires 0 < i <= |xs|
    ensures Offset(sep, xs, i) == |xs[0]| + |sep| + Offset(sep, xs[1..], i - 1)
  {
    assert xs[..i][0] == xs[0];
    assert xs[..i][1..] == xs[1..][..i - 1];
  }

  /** Item `i` occurs in the joined string exactly at `Offset(sep, xs, i)`,
      and a separator follows every item but the last. */
  lemma JoinPiece(sep: string, xs: seq<string>, i: nat)
    requires i < |xs|
    ensures Offset(sep, xs, i) + |xs[i]| <= |Join(sep, xs)|
    ensures Join(sep, xs)[Offset(sep, xs, i)..Offset(sep, xs, i) + |xs[i]|] == xs[i]
    ensures i + 1 < |xs| ==>
      Offset(sep, xs, i) + |xs[i]| + |sep| <= |Join(sep, xs)| &&
      Join(sep, xs)[Offset(sep, xs, i) + |xs[i]|..Offset(sep, xs, i) + |xs[i]| + |sep|] == sep
  {
    var piece := xs[i] + (if i + 1 < |xs| then sep else "");
    JoinPieceAt(sep, xs, i);
    var o := Offset(sep, xs, i);
    var r := Join(sep, xs);
    assert r[o..o + |xs[i]|] == piece[..|xs[i]|];
    if i + 1 < |xs| {
      assert r[o + |xs[i]|..o + |xs[i]| + |sep|] == piece[|xs[i]|..];
    }
  }

  /** Item `i`, followed by a separator unless it is the last, is a slice of
      the joined string starting at its offset. */
  lemma {:induction false} JoinPieceAt(sep: string, xs: seq<string>, i: nat)
    requires i < |xs|
    ensures var piece := xs[i] + (if i + 1 < |xs| then sep else "");
            Offset(sep, xs, i) + |piece| <= |Join(sep, xs)| &&
            Join(sep, xs)[Offset(sep, xs, i)..Offset(sep, xs, i) + |piece|] == piece
  {
    var piece := xs[i] + (if i + 1 < |xs| then sep else "");
    var r := Join(sep, xs);
    if i == 0 {
      assert xs[..0] == [];
      if |xs| > 1 {
        assert r == piece + Join(sep, xs[1..]);
      }
    } else {
      var tail := xs[1..];
      var o := Offset(sep, tail, i - 1);
      assert tail[i - 1] == xs[i];
      JoinPieceAt(sep, tail, i - 1);
      OffsetStep(sep, xs, i);
      assert r == (xs[0] + sep) + Join(sep, tail);
      SliceAfterPrefix(xs[0] + sep, Join(sep, tail), o, o + |piece|);
    }
  }

  lemma SliceAfterPrefix(p: string, q: string, a: nat, b: nat)
    requires a <= b <= |q|
    ensures (p + q)[|p| + a..|p| + b] == q[a..b]
  {
  }

  /** Joining one more item appends a separator and the item. */
  lemma {:induction false} JoinSnoc(sep: string, xs: seq<string>, x: string)
    requires |xs| > 0
    ensures Join(sep, xs + [x]) == Join(sep, xs) + sep + x
  {
    if |xs| == 1 {
      assert xs + [x] == [xs[0], x];
      assert (xs + [x])[1..] == [x];
    } else {
      assert (xs + [x])[1..] == xs[1..] + [x];
      JoinSnoc(sep, xs[1..], x);
    }
  }
}

=== FILE: ui.dfy ===
/** Session-state set-up and the sidebar settings (web_service/utils/ui.py). */
module Ui {
  import opened Wrappers
  import opened Session
  import Document

  /** `init_session_state`: each missing key gets its empty value; present
      keys keep theirs. */
  function InitSessionState(st: SessionState): (r: SessionState)
    ensures r.chatHistory.Present? && r.fileHash.Present? && r.vectorstore.Present?
    ensures st.chatHistory.Present? ==> r.chatHistory == st.chatHistory
    ensures st.fileHash.Present? ==> r.fileHash == st.fileHash
    ensures st.vectorstore.Present? ==> r.vectorstore == st.vectorstore
    ensures st.chatHistory.Absent? ==> r.chatHistory == Present([])
    ensures st.fileHash.Absent? ==> r.fileHash == Present(None)
    ensures st.vectorstore.Absent? ==> r.vectorstore == Present(None)
    ensures r.sessionId == st.sessionId
  {
    var st1 := if st.chatHistory.Absent? then st.(chatHistory := Present([])) else st;
    var st2 := if st1.fileHash.Absent? then st1.(fileHash := Present(None)) else st1;
    if st2.vectorstore.Absent? then st2.(vectorstore := Present(None)) else st2
  }

  /** Initialising an initialised state changes nothing. */
  lemma InitIdempotent(st: SessionState)
    ensures InitSessionState(InitSessionState(st)) == InitSessionState(st)
  {
  }

  /** `reset_session_state` (before its `st.rerun()`): history, hash and
      store cleared; the session id survives. */
  function ResetSessionState(st: SessionState): (r: SessionState)
    ensures r.chatHistory == Present([]) && r.fileHash == Present(None)
            && r.vectorstore == Present(None)
    ensures r.sessionId == st.sessionId
  {
    st.(chatHistory := Present([]), fileHash := Present(None), vectorstore := Present(None))
  }

  /** A reset state is already initialised, and it is what initialising an
      empty session with the same id gives. */
  lemma ResetIsInitialised(st: SessionState)
    ensures InitSessionState(ResetSessionState(st)) == ResetSessionState(st)
    ensures ResetSessionState(st) == InitSessionState(Empty.(sessionId := st.sessionId))
  {
  }

  function Clamp(v: int, lo: int, hi: int): int
    requires lo <= hi
  {
    if v < lo then lo else if v > hi then hi else v
  }

  function Min(a: int, b: int): int { if a <= b then a else b }
  function Max(a: int, b: int): int { if a >= b then a else b }

  /** `st.slider(min_value=lo, max_value=hi, value=default, step=step)` with
      integer bounds. Streamlit widens the range to take in the default, so
      the slider runs from `Min(lo, default)` to `Max(hi, default)`. The value
      is the default, or the handle position the user chose (`pick`, in steps
      from the low end), kept on the slider. */
  function Slider(lo: int, hi: int, step: nat, default: int, pick: Option<int>): (r: int)
    requires step > 0 && lo <= hi
    ensures Min(lo, default) <= r <= Max(hi, default)
    ensures lo <= default <= hi ==> lo <= r <= hi
    ensures pick.None? ==> r == default
    ensures pick.Some? ==> exists c :: 0 <= c && r == Min(lo, default) + step * c
  {
    var low := Min(lo, default);
    var high := Max(hi, default);
    match pick
    case None => default
    case Some(k) =>
      var c := Clamp(k, 0, (high - low) / step);
      StepWithin(step, c, high - low);
      low + step * c
  }

  /** `c` whole steps from the minimum stay on the slider. */
  lemma StepWithin(step: nat, c: int, span: int)
    requires step > 0 && span >= 0 && 0 <= c <= span / step
    ensures 0 <= step * c <= span
  {
    var m := span / step;
    assert step * m <= span;
    MulMono(step, c, m);
  }

  lemma MulMono(a: nat, b: nat, c: nat)
    requires b <= c
    ensures a * b <= a * c
    decreases c - b
  {
    if b < c {
      MulMono(a, b + 1, c);
      assert a * (b + 1) == a * b + a;
    }
  }

  /** What the user did to each sidebar widget (`None`: left at default). */
  datatype SidebarInput = SidebarInput(
    chunkSize: Option<int>,
    chunkOverlap: Option<int>,
    vectorTopK: Option<int>,
    useReranker: bool,
    rerankTopK: Option<int>,
    temperatureTenths: Option<int>,
    maxTokens: Option<int>,
    resetPressed: bool)

  /** The tuple `configure_sidebar` returns. Temperature is in tenths. */
  datatype Settings = Settings(
    chunkSize: int,
    chunkOverlap: int,
    vectorTopK: int,
    useReranker: bool,
    rerankTopK: int,
    temperatureTenths: int,
    maxTokens: int)

  datatype SidebarOutcome =
    | Configured(settings: Settings)
    | Rerun              // the reset button's `st.rerun()` ends the script run

  /** The bounds the sidebar's sliders declare, except the rerank slider's
      maximum. */
  ghost predicate DeclaredBounds(s: Settings)
  {
    && 100 <= s.chunkSize <= 2000
    && 0 <= s.chunkOverlap <= 500
    && 1 <= s.vectorTopK <= 20
    && (s.useReranker ==> 1 <= s.rerankTopK)
    && (!s.useReranker ==> s.rerankTopK == s.vectorTopK)
    && 0 <= s.temperatureTenths <= 10
    && 256 <= s.maxTokens <= 4096
  }

  /** All declared bounds: the rerank count is also at most the number of
      vector results it reranks. */
  ghost predicate InBounds(s: Settings)
  {
    DeclaredBounds(s) && s.rerankTopK <= s.vectorTopK
  }

  /** `configure_sidebar` as written: the rerank slider's default is 2
      whatever its maximum, and the overlap slider ignores the chunk size. */
  function ConfigureSidebar(st: SessionState, input: SidebarInput): (r: (SessionState, SidebarOutcome))
    ensures r.1.Configured? <==> !input.resetPressed
    ensures r.1.Configured? ==> r.0 == st
    ensures r.1.Configured? ==> DeclaredBounds(r.1.settings)
    // the rerank count exceeds the vector count only as 2 over 1
    ensures r.1.Configured? && r.1.settings.rerankTopK > r.1.settings.vectorTopK ==>
      r.1.settings.vectorTopK == 1 && r.1.settings.rerankTopK == 2
    ensures r.1.Rerun? ==> r.0 == ResetSessionState(st)
  {
    ConfigureWith(st, input, false)
  }

  /** The sidebar as written (`corrected` false) or with the overlap slider's
      maximum capped at the chunk size and the rerank default capped at
      vector_top_k (`corrected` true). Each returned field is its widget's
      value, and the reset button resets the session and ends the run. */
  function ConfigureWith(st: SessionState, input: SidebarInput, corrected: bool): (r: (SessionState, SidebarOutcome))
    ensures r.1.Configured? <==> !input.resetPressed
    ensures r.1.Configured? ==> r.0 == st
    ensures r.1.Rerun? ==> r.0 == ResetSessionState(st)
    ensures r.1.Configured? ==>
      var chunkSize := Slider(100, 2000, 1, 512, input.chunkSize);
      var vectorTopK := Slider(1, 20, 1, 4, input.vectorTopK);
      r.1.settings == Settings(
        chunkSize,
        Slider(0, if corrected then Min(500, chunkSize) else 500, 1, 50, input.chunkOverlap),
        vectorTopK,
        input.useReranker,
        if input.useReranker
        then Slider(1, vectorTopK, 1, if corrected then Min(2, vectorTopK) else 2, input.rerankTopK)
        else vectorTopK,
        Slider(0, 10, 1, 6, input.temperatureTenths),
        Slider(256, 4096, 256, 1024, input.maxTokens))
  {
    var chunkSize := Slider(100, 2000, 1, 512, input.chunkSize);
    var overlapMax := if corrected then Min(500, chunkSize) else 500;
    var chunkOverlap := Slider(0, overlapMax, 1, 50, input.chunkOverlap);
    var vectorTopK := Slider(1, 20, 1, 4, input.vectorTopK);
    var rerankDefault := if corrected then Min(2, vectorTopK) else 2;
    var rerankTopK :=
      if input.useReranker then Slider(1, vectorTopK, 1, rerankDefault, input.rerankTopK)
      else vectorTopK;
    var temperature := Slider(0, 10, 1, 6, input.temperatureTenths);
    var maxTokens := Slider(256, 4096, 256, 1024, input.maxTokens);
    if input.resetPressed then (ResetSessionState(st), Rerun)
    else (st, Configured(Settings(chunkSize, chunkOverlap, vectorTopK, input.useReranker,
                                  rerankTopK, temperature, maxTokens)))
  }

  /** Nothing ties the overlap to the chunk size: the sidebar returns overlap
      500 with chunk size 100, and the processor built from those settings on
      the same run raises in its text splitter, ending the run. */
  lemma OverlapAboveChunkSizeStopsRun(st: SessionState, sessionIdArg: Option<string>,
                                      now: string, uuid: string)
    ensures var out := ConfigureSidebar(st, SidebarInput(Some(0), Some(500), None, false, None, None, None, false)).1;
            out.Configured? && out.settings.chunkSize == 100 && out.settings.chunkOverlap == 500 &&
            Document.NewProcessor(out.settings.chunkSize, out.settings.chunkOverlap,
                                  sessionIdArg, st, now, uuid).Failure?
  {
  }

  /** With one vector result and reranking on, the rerank slider's default 2
      lies above its declared maximum 1; the widened slider returns 2, so the
      sidebar asks the reranker for more documents than the search returns. */
  lemma RerankDefaultAboveMax(st: SessionState)
    ensures var out := ConfigureSidebar(st, SidebarInput(None, None, Some(0), true, None, None, None, false)).1;
            out.Configured? && out.settings.vectorTopK == 1 && out.settings.rerankTopK == 2
            && !InBounds(out.settings)
  {
  }

  /** The corrected sidebar: no default exceeds its slider's maximum, every
      returned configuration keeps the declared bounds, and the overlap never
      exceeds the chunk size. */
  function ConfigureSidebarFixed(st: SessionState, input: SidebarInput): (r: (SessionState, SidebarOutcome))
    ensures r.1.Configured? <==> !input.resetPressed
    ensures r.1.Configured? ==> InBounds(r.1.settings) && r.0 == st
    ensures r.1.Configured? ==> r.1.settings.chunkOverlap <= r.1.settings.chunkSize
    ensures r.1.Configured? && input.chunkOverlap.None? ==> r.1.settings.chunkOverlap == 50
    ensures r.1.Configured? && input.rerankTopK.None? && input.useReranker ==>
      r.1.settings.rerankTopK == Min(2, r.1.settings.vectorTopK)
    ensures r.1.Rerun? ==> r.0 == ResetSessionState(st)
  {
    ConfigureWith(st, input, true)
  }

  /** Every configuration the corrected sidebar returns builds a processor. */
  lemma FixedSidebarBuildsProcessor(st: SessionState, input: SidebarInput,
                                    sessionIdArg: Option<string>, now: string, uuid: string)
    requires !input.resetPressed
    ensures var out := ConfigureSidebarFixed(st, input).1;
            out.Configured? &&
            Document.NewProcessor(out.settings.chunkSize, out.settings.chunkOverlap,
                                  sessionIdArg, st, now, uuid).Success?
  {
  }
}

=== FILE: utils.dfy ===
/** Helpers of the web service: OCR text cleaning and the memoised session id
    (web_service/utils/utils.py). */
module Utils {
  import opened Wrappers
  import opened Text
  import opened Session

  /** Python's `str.isspace()` for one character: the ASCII controls 9-13 and
      28-31, the space, and the Unicode separators and spaces. */
  predicate IsSpace(c: char)
  {
    var n := c as int;
    || 9 <= n <= 13
    || 28 <= n <= 32
    || n == 0x85 || n == 0xA0 || n == 0x1680
    || 0x2000 <= n <= 0x200A
    || n == 0x2028 || n == 0x2029 || n == 0x202F || n == 0x205F || n == 0x3000
  }

  /** Every character of `s` at positions `lo` up to `hi` is whitespace. */
  ghost predicate SpaceIn(s: string, lo: int, hi: int)
  {
    forall k :: lo <= k < hi && 0 <= k < |s| ==> IsSpace(s[k])
  }

  ghost predicate AllSpace(s: string)
  {
    SpaceIn(s, 0, |s|)
  }

  /** Neither the first nor the last character is whitespace. */
  ghost predicate Trimmed(s: string)
  {
    |s| == 0 || (!IsSpace(s[0]) && !IsSpace(s[|s| - 1]))
  }

  /** The end of the whitespace run that starts at `i`: `s.lstrip()` begins
      at `LeadEnd(s, 0)`. */
  function LeadEnd(s: string, i: nat): (j: nat)
    requires i <= |s|
    ensures i <= j <= |s| && SpaceIn(s, i, j)
    ensures j == |s| || !IsSpace(s[j])
    decreases |s| - i
  {
    if i < |s| && IsSpace(s[i]) then LeadEnd(s, i + 1) else i
  }

  /** The start of the whitespace run that ends at `j`, not going below `lo`:
      `s.rstrip()` ends at `TrailStart(s, 0, |s|)`. */
  function TrailStart(s: string, lo: nat, j: nat): (t: nat)
    requires lo <= j <= |s|
    ensures lo <= t <= j && SpaceIn(s, t, j)
    ensures t == lo || !IsSpace(s[t - 1])
    decreases j
  {
    if lo < j && IsSpace(s[j - 1]) then TrailStart(s, lo, j - 1) else j
  }

  /** `s.strip()`: `s` is `r` with only whitespace added before and after, and
      `r` itself starts and ends with non-whitespace. */
  function Strip(s: string): (r: string)
    ensures Trimmed(r)
    ensures exists i :: 0 <= i <= |s| - |r| && r == s[i..i + |r|]
                        && SpaceIn(s, 0, i) && SpaceIn(s, i + |r|, |s|)
    ensures AllSpace(s) ==> r == ""
  {
    var i := LeadEnd(s, 0);
    var j := TrailStart(s, i, |s|);
    assert i < j ==> s[i..j][0] == s[i] && s[i..j][j - i - 1] == s[j - 1];
    assert i < j ==> !SpaceIn(s, 0, |s|);
    s[i..j]
  }

  /** A string that is already trimmed is its own strip. */
  lemma StripTrimmed(s: string)
    requires Trimmed(s)
    ensures Strip(s) == s
  {
    if |s| > 0 {
      assert LeadEnd(s, 0) == 0;
      assert TrailStart(s, 0, |s|) == |s|;
    }
  }

  /** Stripping keeps only characters of the input. */
  lemma StripNoNewline(s: string)
    requires '\n' !in s
    ensures '\n' !in Strip(s)
  {
    var i := LeadEnd(s, 0);
    NotInSlice('\n', s, i, TrailStart(s, i, |s|));
  }

  lemma NotInSlice(c: char, s: string, i: nat, j: nat)
    requires i <= j <= |s| && c !in s
    ensures c !in s[i..j]
  {
  }

  /** Number of occurrences of `c` in `s`. */
  function Count(c: char, s: string): nat
  {
    if |s| == 0 then 0 else (if s[0] == c then 1 else 0) + Count(c, s[1..])
  }

  /** `s.split('\n')`: the pieces between newline characters, in order; there
      is always one more piece than there are newlines. */
  function SplitLines(s: string): (r: seq<string>)
    ensures |r| == Count('\n', s) + 1
    ensures forall i :: 0 <= i < |r| ==> '\n' !in r[i]
  {
    if |s| == 0 then [""]
    else
      var rest := SplitLines(s[1..]);
      if s[0] == '\n' then [""] + rest
      else [[s[0]] + rest[0]] + rest[1..]
  }

  /** Joining the pieces with newlines gives back the input. */
  lemma {:induction false} JoinSplitLines(s: string)
    ensures Join("\n", SplitLines(s)) == s
  {
    if |s| > 0 {
      var rest := SplitLines(s[1..]);
      JoinSplitLines(s[1..]);
      if s[0] == '\n' {
        assert s == "\n" + s[1..];
      } else if |rest| == 1 {
        assert s == [s[0]] + s[1..];
      } else {
        var r := [[s[0]] + rest[0]] + rest[1..];
        assert r[1..] == rest[1..];
        assert s == [s[0]] + s[1..];
      }
    }
  }

  lemma {:induction false} SplitLinesNoNewline(a: string)
    requires '\n' !in a
    ensures SplitLines(a) == [a]
  {
    if |a| > 0 {
      SplitLinesNoNewline(a[1..]);
      assert [a[0]] + a[1..] == a;
    }
  }

  lemma {:induction false} SplitLinesCons(a: string, b: string)
    requires '\n' !in a
    ensures SplitLines(a + "\n" + b) == [a] + SplitLines(b)
  {
    if |a| == 0 {
      assert a + "\n" + b == "\n" + b;
      assert ("\n" + b)[1..] == b;
    } else {
      var s := a + "\n" + b;
      assert s[1..] == a[1..] + "\n" + b;
      SplitLinesCons(a[1..], b);
      assert [s[0]] + a[1..] == a;
    }
  }

  /** Splitting newline-free lines joined by newlines gives back the lines. */
  lemma {:induction false} SplitJoinLines(ls: seq<string>)
    requires |ls| > 0
    requires forall i :: 0 <= i < |ls| ==> '\n' !in ls[i]
    ensures SplitLines(Join("\n", ls)) == ls
  {
    if |ls| == 1 {
      SplitLinesNoNewline(ls[0]);
    } else {
      SplitJoinLines(ls[1..]);
      SplitLinesCons(ls[0], Join("\n", ls[1..]));
    }
  }

  function StripEach(ls: seq<string>): (r: seq<string>)
    ensures |r| == |ls|
    ensures forall i :: 0 <= i < |r| ==> r[i] == Strip(ls[i])
  {
    seq(|ls|, i requires 0 <= i < |ls| => Strip(ls[i]))
  }

  /** The cleaning step applied to OCR output:
      `'\n'.join(line.strip() for line in text.split('\n'))`. */
  function CleanLines(text: string): (r: string)
    ensures SplitLines(r) == StripEach(SplitLines(text))
    ensures Count('\n', r) == Count('\n', text)
  {
    var stripped := StripEach(SplitLines(text));
    StripEachNoNewline(SplitLines(text));
    SplitJoinLines(stripped);
    Join("\n", stripped)
  }

  /** Stripped lines of a split text carry no newline. */
  lemma StripEachNoNewline(ls: seq<string>)
    requires forall i :: 0 <= i < |ls| ==> '\n' !in ls[i]
    ensures forall i :: 0 <= i < |ls| ==> '\n' !in StripEach(ls)[i]
  {
    forall i | 0 <= i < |ls|
      ensures '\n' !in StripEach(ls)[i]
    {
      StripNoNewline(ls[i]);
    }
  }

  /** The lines of the cleaned text are the stripped lines of the input: same
      number of lines (so the same number of newlines), line `i` being input
      line `i` without surrounding whitespace. */
  lemma CleanLinesLines(text: string)
    ensures SplitLines(CleanLines(text)) == StripEach(SplitLines(text))
    ensures Count('\n', CleanLines(text)) == Count('\n', text)
    ensures forall i :: 0 <= i < |SplitLines(text)| ==>
      SplitLines(CleanLines(text))[i] == Strip(SplitLines(text)[i])
    ensures forall i :: 0 <= i < |SplitLines(CleanLines(text))| ==>
      Trimmed(SplitLines(CleanLines(text))[i])
  {
  }

  /** Cleaning twice is the same as cleaning once. */
  lemma CleanLinesIdempotent(text: string)
    ensures CleanLines(CleanLines(text)) == CleanLines(text)
  {
    var once := CleanLines(text);
    CleanLinesLines(text);
    var ls := SplitLines(once);
    forall i | 0 <= i < |ls|
      ensures Strip(ls[i]) == ls[i]
    {
      StripTrimmed(ls[i]);
    }
    assert StripEach(ls) == ls;
    JoinSplitLines(once);
  }

  /** `extract_text_from_image_url`: `ocr` is the OCR service's `fullText`
      for the image URL, or `None` when the request or the JSON handling
      raised; the text is cleaned line by line, and a failure yields "". */
  function ExtractTextFromImageUrl(url: string, ocr: string -> Option<string>): (r: string)
    ensures ocr(url).None? ==> r == ""
    ensures ocr(url).Some? ==>
      Count('\n', r) == Count('\n', ocr(url).value) &&
      SplitLines(r) == StripEach(SplitLines(ocr(url).value))
  {
    match ocr(url)
    case None => ""
    case Some(full) =>
      CleanLinesLines(full);
      CleanLines(full)
  }

  /** `generate_session_id`: the stored id when there is one; otherwise
      `now + "_" + uuid` is stored and returned. `now` and `uuid` stand for
      the formatted clock reading and the random UUID. */
  function GenerateSessionId(st: SessionState, now: string, uuid: string): (r: (string, SessionState))
    ensures r.1.sessionId == Present(r.0)
    ensures st.sessionId.Present? ==> r.0 == st.sessionId.value && r.1 == st
    ensures st.sessionId.Absent? ==>
      r.0 == now + "_" + uuid && r.0[..|now|] == now && r.0[|now|] == '_'
    ensures r.1.chatHistory == st.chatHistory && r.1.fileHash == st.fileHash
            && r.1.vectorstore == st.vectorstore
  {
    match st.sessionId
    case Present(id) => (id, st)
    case Absent =>
      var id := now + "_" + uuid;
      (id, st.(sessionId := Present(id)))
  }

  /** Once an id has been generated, every later call returns that same id,
      whatever clock reading and UUID it is offered, and changes nothing. */
  lemma SessionIdStable(st: SessionState, now: string, uuid: string,
                        now': string, uuid': string)
    ensures var (id, st1) := GenerateSessionId(st, now, uuid);
            GenerateSessionId(st1, now', uuid') == (id, st1)
  {
  }
}

=== FILE: wrappers.dfy ===
/** Failure-carrying datatypes shared by every module of the model. */
module Wrappers {

  /** Python's `None` versus a present value. */
  datatype Option<+T> = None | Some(value: T)

  /** The outcome of an operation that can raise. */
  datatype Result<+R, +E> = Success(value: R) | Failure(error: E)
}
